=== FILE: README.md ===
# Geo Sync_app core, modelled in Dafny

The model covers the synchronisation core of the `Sync_app` package, which links two catalogs:

- the **commercial catalog**, the goods of the inventory service (MoySklad);
- the **regulatory catalog**, the excise products reported to EGAIS through the market service (Kontur.Market).

A Google Sheets correspondence table supplies the links: each row holds a commercial name and an excise code.

The model contains:

- `Matcher` — `db_set_matches`, a fold over the correspondence rows. It grows a set of
  links between commercial and regulatory products and collects the rows it could not use.
  The loop (`DbSetMatches`) is proved equal to a declarative run (`Match`). Properties of the run are
  proved about `Match`:
  - every row either links or is rejected, never both;
  - rejected rows keep their order;
  - every link is justified by a row;
  - a second run changes nothing.
- `MoySkladGood` — the `Good` record and its name shortening `_convert_name`: the text before
  the first ` (`, one pass of replacing double spaces, then `strip()`.
- `MoySkladConstants` — the lookup tables and enumerations of the catalog parser.
- `MoySkladUrls` — `get_url` and `get_headers`: the endpoint, the query filters and the headers of each request kind.
- `GoogleSheets` — the argument guards and the row clean-up of `get_data`: a sort, then skipping the empty rows.
- `KonturMarket` — the regulatory records, the assortment sort, and the sales-journal payload with its post/no-post decision.
- Support modules:
  - `Wrappers` (`Option`);
  - `Decimal` (decimal text of integers and its inverse, zero padding, `int()` truncation);
  - `Dates` (`str(date)`, ISO `YYYY-MM-DD`, and its inverse);
  - `Lex` (Python's lexicographic order on lists and strings);
  - `Sorting` (a stable sort by key, as Python's `sorted(..., key=...)`).

Inputs that the source gets from the outside world are parameters of the model:

- service responses;
- the database contents;
- today's date;
- the already-encoded Basic credentials;
- the rendering of a float volume.

## Model

| member | source | states |
|---|---|---|
| Matcher.DbSetMatches | Sync_app/models/app_models_func.py:7-79 | The row loop, with early exit at the first unknown excise code, computes exactly the declarative run `Match`: same links, same rejected rows, same raise. |
| Matcher.Match | Sync_app/models/app_models_func.py:16-79 | Links already in the database stay. The run finishes iff every row with two or more fields has its excise code in the regulatory catalog. Otherwise it raises on a code missing from that catalog, and the code comes from a row of the table. |
| Matcher.EmptyTable | Sync_app/models/app_models_func.py:16-17 | An empty table returns no rows and adds no link. |
| Matcher.Candidates | Sync_app/models/app_models_func.py:40-43 | A commercial product is a candidate of a row iff all of these hold: same name, not draft, and (when the row has a brewery) same brewery. |
| Matcher.CandidatesCount | Sync_app/models/app_models_func.py:40-43 | The filter keeps every matching database row exactly once. An eligible product is a candidate as many times as the catalog holds it, and an ineligible one never is. So the number of candidates, on which the row branches, is the number of eligible catalog entries. |
| Matcher.OneCandidate | Sync_app/models/app_models_func.py:40-75 | A row with exactly one eligible catalog entry has that product as its only candidate and links it to the row's excise code, whatever its container size. |
| Matcher.SameCapacity | Sync_app/models/app_models_func.py:55 | The narrowed candidates are exactly those whose container size equals the regulatory product's. |
| Matcher.Decide | Sync_app/models/app_models_func.py:46-75 | A row that links adds at least one link. |
| Matcher.DecideCases | Sync_app/models/app_models_func.py:46-75 | No candidate: rejected. One candidate: linked alone, whatever its size. Several: exactly the same-size candidates are linked, and the row is rejected iff none has that size. Every link carries the row's code. |
| Matcher.LinkAll | Sync_app/models/app_models_func.py:65-68 | The loop over the narrowed candidates adds one link per candidate to the row's code, and nothing else. |
| Matcher.ApplyRow | Sync_app/models/app_models_func.py:27-77 | One pass of the loop adds the row's links, or appends the row to the rejected rows. A row of fewer than two fields is appended unchanged. |
| Matcher.FirstUnknown | Sync_app/models/app_models_func.py:24-31 | The raise happens at the first row whose code is unknown; every row before it is known. |
| Matcher.FirstUnknownAt | Sync_app/models/app_models_func.py:31 | A row that is unknown and preceded only by known rows is the one the run raises at. |
| Matcher.LinksUpToJustified | Sync_app/models/app_models_func.py:40-75 | Every link the run adds names a code in the regulatory catalog and a product that passes the filters of a row carrying that code. |
| Matcher.RowLinksCollected | Sync_app/models/app_models_func.py:24-79 | The links of every processed row are in the run's link set. |
| Matcher.RejectedIffNoLinks | Sync_app/models/app_models_func.py:24-79 | A processed row is among the rejected rows iff it adds no link. |
| Matcher.RejectedFromTable | Sync_app/models/app_models_func.py:24-79 | Every rejected row is a row of the table. |
| Matcher.RejectedInOrder | Sync_app/models/app_models_func.py:19-79 | The rejected rows are a subsequence of the table: input order is kept. |
| Matcher.RejectedCount | Sync_app/models/app_models_func.py:19-79 | There is one returned entry per table row that adds no link, so a duplicated sheet row that adds nothing is returned twice. |
| Matcher.FinishedRun | Sync_app/models/app_models_func.py:24-79 | After a finished run: each row links or is returned, never both; short rows are returned; returned rows keep table order, and there is one per row that adds no link; each new link is justified by a row. |
| Matcher.RaisedRun | Sync_app/models/app_models_func.py:31 | A raise reports the excise code of the first row whose code is unknown. Every link present after the raise was there before, or is justified by a row before that one. |
| Matcher.Rerun | Sync_app/models/app_models_func.py:68-75 | Links are only added. Running again from the resulting link set gives the same outcome and the same links. |
| Matcher.ScenarioRows | Sync_app/models/app_models_func.py:40-77 | Concrete rows: a beer in 0.5 L and 0.33 L bottles plus a draft version. The coded row links the 0.5 L bottle alone, and the row without a code is rejected. |
| Matcher.CapacityScenario | Sync_app/models/app_models_func.py:53-77 | The same two-row table as a whole run finishes with one link and returns the codeless row. |
| MoySkladGood.BeforeOpenParen | Sync_app/moysklad/moysklad_class_lib.py:62 | `split(' (')[0]` is a prefix of the name with no ` (` in it, and it stops exactly where the first ` (` starts. |
| MoySkladGood.CollapseDoubleSpaces | Sync_app/moysklad/moysklad_class_lib.py:62 | The replacement keeps the first character and never lengthens the text. |
| MoySkladGood.CollapseKeepsNoOpenParen | Sync_app/moysklad/moysklad_class_lib.py:62 | Collapsing spaces never creates a ` (`. |
| MoySkladGood.NoDoubleSpaceUnchanged | Sync_app/moysklad/moysklad_class_lib.py:62 | Text with no pair of adjacent spaces is left alone by the replacement. |
| MoySkladGood.DoubleSpaceShortens | Sync_app/moysklad/moysklad_class_lib.py:62 | Text with a pair of adjacent spaces gets strictly shorter. |
| MoySkladGood.CollapseFixedPoints | Sync_app/moysklad/moysklad_class_lib.py:62 | The replacement changes a text iff it holds two adjacent spaces. |
| MoySkladGood.CollapseRun | Sync_app/moysklad/moysklad_class_lib.py:62 | A run of n spaces becomes n - n/2 spaces: pairs are replaced left to right and never overlap. |
| MoySkladGood.LeftEdge | Sync_app/moysklad/moysklad_class_lib.py:62 | Finds the first non-whitespace character, where whitespace is as Python's `str.isspace` defines it. |
| MoySkladGood.RightEdge | Sync_app/moysklad/moysklad_class_lib.py:62 | Finds the end of the text once its trailing whitespace is dropped. |
| MoySkladGood.Strip | Sync_app/moysklad/moysklad_class_lib.py:62 | `strip()` returns the infix between the leading and the trailing whitespace, and the result neither starts nor ends with whitespace. |
| MoySkladGood.StripTrimmed | Sync_app/moysklad/moysklad_class_lib.py:62 | `strip()` leaves alone a text that neither starts nor ends with whitespace. |
| MoySkladGood.ConvertName | Sync_app/moysklad/moysklad_class_lib.py:51-62 | The short name has no ` (`, no leading or trailing whitespace, and is no longer than the text before the first ` (`. |
| MoySkladGood.ConvertNameHead | Sync_app/moysklad/moysklad_class_lib.py:62 | Only the text before the first ` (` matters; a name without ` (` is processed whole. |
| MoySkladGood.ConvertNameUsesHeadOnly | Sync_app/moysklad/moysklad_class_lib.py:62 | Whatever follows the first ` (` does not change the result. |
| MoySkladGood.ConvertCleanHead | Sync_app/moysklad/moysklad_class_lib.py:62 | A head that is already clean (no ` (`, no double space, no surrounding whitespace) is exactly the short name of head + ` (` + anything. |
| MoySkladGood.DocstringExample | Sync_app/moysklad/moysklad_class_lib.py:53-62 | The docstring example: `4Пивовара - Black Jesus White Pepper (Porter - American. OG 17, ABV 6.7%, IBU 69)` becomes `4Пивовара - Black Jesus White Pepper`. |
| MoySkladGood.NotIdempotent | Sync_app/moysklad/moysklad_class_lib.py:62 | `a   b` converts to `a  b`, and converting that again gives `a b`: the conversion is not idempotent. |
| MoySkladGood.NewGood | Sync_app/moysklad/moysklad_class_lib.py:38-49 | The constructor keeps quantity, price, regulatory name and flag. With the flag set, the name is the converted name `ConvertName` of the given one, so it has no ` (` and no surrounding whitespace. Without the flag the name is kept verbatim. |
| MoySkladGood.TupleRebuildsGood | Sync_app/moysklad/moysklad_class_lib.py:64-66 | `to_tuple` is (commercial name, regulatory name, quantity, price): building an unconverted `Good` from it gives back the record, and then the same tuple. |
| MoySkladConstants.TrashShape | Sync_app/moysklad/moysklad_constants.py:5-12 | Six distinct noise suffixes, each starting with a space. |
| MoySkladConstants.ModificationSetShape | Sync_app/moysklad/moysklad_constants.py:14-23 | The size table has eight keys, and every capacity is one of 330, 375, 450, 500, 750 mL. |
| MoySkladConstants.ModificationSetEntries | Sync_app/moysklad/moysklad_constants.py:14-23 | The key set and each key's capacity, e.g. `Бутылка 0,75` to 750 mL and `Банка 0,45` to 450 mL. |
| MoySkladConstants.LitresLabel | Sync_app/moysklad/moysklad_constants.py:14-23 | The capacity written in litres as the size names write it: `0,`, then the digits without trailing zeros. The digits read back, scaled to thousandths, as the capacity in millilitres. |
| MoySkladConstants.LitresLabelValues | Sync_app/moysklad/moysklad_constants.py:14-23 | The litre texts of the five capacities. |
| MoySkladConstants.NamedSize | Sync_app/moysklad/moysklad_constants.py:14-23 | A name of the form head + space + litre text ends with that capacity's litre text. |
| MoySkladConstants.CanSizeNames | Sync_app/moysklad/moysklad_constants.py:15-22 | Each can size name ends with its capacity in litres. |
| MoySkladConstants.BottleSizeNames | Sync_app/moysklad/moysklad_constants.py:17-20 | Each bottle size name ends with its capacity in litres. |
| MoySkladConstants.LabelsMatchCapacities | Sync_app/moysklad/moysklad_constants.py:14-23 | Every key of the size table ends with the capacity it maps to, written in litres: keys and values agree. |
| MoySkladConstants.GoodTypeMembers | Sync_app/moysklad/moysklad_constants.py:26-34 | `GoodType` has exactly six members, each listed once. |
| MoySkladConstants.GoodTypeValues | Sync_app/moysklad/moysklad_constants.py:26-34 | Members have distinct values, and `GoodType(value)` finds each member from its value. |
| MoySkladConstants.AlcoTypeOf | Sync_app/moysklad/moysklad_constants.py:37-45 | `AlcoType(value)` is defined exactly for 1 and 2. |
| MoySkladConstants.AlcoTypeValues | Sync_app/moysklad/moysklad_constants.py:37-45 | Value and lookup are inverse to each other in both directions. |
| MoySkladConstants.CharacteristicTokens | Sync_app/moysklad/moysklad_constants.py:48-53 | The tokens are lower-case ASCII, pairwise distinct, and `Characteristics(token)` finds each member from its token. |
| MoySkladUrls.GetUrl | Sync_app/moysklad/moysklad_urls.py:63-131 | Endpoint and filters per request kind:<br>token: the token path and no filter;<br>assortment: one folder filter, and the caller's offset;<br>sales and returns: the four-part sales filter, with start defaulting to today and end to start. |
| MoySkladUrls.DateFilter | Sync_app/moysklad/moysklad_urls.py:99-100 | A date filter is `moment`, the bound (`>` or `<`), the ISO date at offsets 7 to 17, then the time of day. |
| MoySkladUrls.DateFilterReadBack | Sync_app/moysklad/moysklad_urls.py:99-100 | The date of a date filter reads back from offsets 7 to 17. |
| MoySkladUrls.SalesFilterReadBack | Sync_app/moysklad/moysklad_urls.py:99-115 | The period can be read back from the third and fourth filters of the sales filter. |
| MoySkladUrls.SalesPeriodReadBack | Sync_app/moysklad/moysklad_urls.py:91-122 | For sales and returns, the requested period reads back from the request's filter. |
| MoySkladUrls.SalesEndDefaultsToStart | Sync_app/moysklad/moysklad_urls.py:95-96 | For sales and returns, leaving out the end asks for the start day alone. |
| MoySkladUrls.SalesIgnoreOffset | Sync_app/moysklad/moysklad_urls.py:105-115 | Sales and returns requests do not depend on the offset argument. |
| MoySkladUrls.EndpointsDistinct | Sync_app/moysklad/moysklad_urls.py:86-130 | Different request kinds go to different endpoints. |
| MoySkladUrls.GetHeaders | Sync_app/moysklad/moysklad_urls.py:43-60 | A token gives three headers, the last `Bearer` + token; no token gives one `Basic` header. Either way only the last header is the authorization one. |
| MoySkladUrls.BearerCarriesToken | Sync_app/moysklad/moysklad_urls.py:55 | The token travels unchanged after `Bearer `. |
| GoogleSheets.GetData | Sync_app/googledrive/googledrive_class_lib.py:39-63 | An empty argument or an empty answer gives `[]`. An answer of only empty rows gives `IndexError`. Otherwise the rows come back sorted, without empty rows, and as a permutation of the answer's non-empty rows. |
| GoogleSheets.SortRowsProperties | Sync_app/googledrive/googledrive_class_lib.py:59 | `sorted` returns a permutation of the rows in lexicographic order. |
| GoogleSheets.NoEmptyAfter | Sync_app/googledrive/googledrive_class_lib.py:56-63 | In sorted rows, the empty rows all come first. |
| GoogleSheets.SkipEmptyPrefix | Sync_app/googledrive/googledrive_class_lib.py:60-63 | The skipping loop reaches the end iff every row is empty. Otherwise what it leaves is non-empty and a permutation of the non-empty rows. |
| GoogleSheets.NonEmptyRows | Sync_app/googledrive/googledrive_class_lib.py:56-63 | The reference list of non-empty rows holds only non-empty rows of the input. |
| GoogleSheets.NonEmptyRowsCount | Sync_app/googledrive/googledrive_class_lib.py:56-63 | Each non-empty row occurs as often in that list as in the input, and the empty row not at all. |
| Lex.LexReflexive | Sync_app/googledrive/googledrive_class_lib.py:59 | Python's list and string order is reflexive. |
| Lex.LexAntisymmetric | Sync_app/googledrive/googledrive_class_lib.py:59 | Python's list and string order is antisymmetric. |
| Lex.LexTransitive | Sync_app/googledrive/googledrive_class_lib.py:59 | Python's list and string order is transitive. |
| Lex.LexTotal | Sync_app/googledrive/googledrive_class_lib.py:59 | Python's list and string order is total. |
| Lex.BelowEmpty | Sync_app/googledrive/googledrive_class_lib.py:58-59 | Only the empty list is below the empty list. |
| Sorting.SortBy | Sync_app/konturmarket/konturmarket_class_lib.py:98 | The key sort returns a permutation of its input. |
| Sorting.SortBySorted | Sync_app/konturmarket/konturmarket_class_lib.py:98 | Under a total preorder on keys, the key sort returns its items ordered by key. |
| Sorting.SortByStable | Sync_app/konturmarket/konturmarket_class_lib.py:98 | The key sort is stable: the items of one key keep their input order. |
| KonturMarket.DescriptionFrame | Sync_app/konturmarket/konturmarket_class_lib.py:51-57 | The description is the tuple's three fields in the fixed `Пивоварня: … Наименование: … Код: …` frame: producer first, code last, at fixed offsets. |
| KonturMarket.SortAssortment | Sync_app/konturmarket/konturmarket_class_lib.py:98 | The sorted assortment is a permutation of the fetched items. |
| KonturMarket.AssortmentOrder | Sync_app/konturmarket/konturmarket_class_lib.py:98 | The assortment is ordered by producer short name, and the items of one producer stay in fetch order. |
| KonturMarket.PayloadRows | Sync_app/konturmarket/konturmarket_class_lib.py:149-159 | One payload row per journal entry, in order: row i is built from entry i with number i + 1. |
| KonturMarket.BuildPayload | Sync_app/konturmarket/konturmarket_class_lib.py:146-163 | The payload has the date's ISO text as its day, one row per entry, and `writeAutoRows` false. Each row copies the entry's excise code and has type `New`. |
| KonturMarket.RowReadsBack | Sync_app/konturmarket/konturmarket_class_lib.py:151-157 | A payload row reads back as its number, code and kind code, with quantity and price truncated toward zero. |
| KonturMarket.PayloadReadsBack | Sync_app/konturmarket/konturmarket_class_lib.py:146-163 | Row i reads back as number i + 1 with entry i's fields, quantity and price truncated. The day reads back as the date. |
| KonturMarket.CreateSalesJournal | Sync_app/konturmarket/konturmarket_class_lib.py:129-171 | A payload is posted iff the login succeeds, the read is ok, the day has no rows and the database journal is non-empty. The method returns true iff a payload was posted and the write succeeded. |
| Decimal.NatRoundTrip | Sync_app/konturmarket/konturmarket_class_lib.py:151 | The decimal text of a row number reads back as that number. |
| Decimal.IntRoundTrip | Sync_app/konturmarket/konturmarket_class_lib.py:153 | `str()` of an integer code reads back as that integer, sign included. |
| Decimal.Trunc | Sync_app/konturmarket/konturmarket_class_lib.py:155-156 | `int()` of a number truncates toward zero. |
| Decimal.Padded | Sync_app/moysklad/moysklad_urls.py:99-100 | A zero-padded field has exactly the requested width and reads back as its number. |
| Dates.IsoRoundTrip | Sync_app/konturmarket/konturmarket_class_lib.py:138 | The ISO text of a date reads back as that date. |

## Left out

- HTTP, sessions and authentication are left out, because they are I/O. This covers:
  - `KonturMarket.login`, and the fetch in `get_egais_assortment` (only its sort is modelled);
  - `sync_assortment` and its database save;
  - `MoySklad.set_token` and `get_assortment`;
  - `GoogleSheets.get_access` and `send_data`;
  - the service call inside `get_data`.

  Their outcomes are parameters, such as `loginOk`, `read`, `writeOk` and `values`.
- The ORM is left out. The commercial catalog is a sequence and the regulatory catalog is a map from excise code to product. The many-to-many relation is a set of `Link`s.
  - A duplicate excise code (`MultipleObjectsReturned`) cannot occur in a map, so it is not modelled.
  - A missing code (`DoesNotExist`) is the explicit outcome `Raised`. Links added before it stay, because the source runs no transaction.
- `CompilanceRow`, which splits a commercial name into name and brewery, is not part of this model. The split is the parameter `names`.
- `parse_name` and `get_sales_journal_from_db` are not part of this model. The database journal for a day is the parameter `journals`.
- `Sync_app/common/functions.py` is left out: it is not part of the modelled core. `Sync_app/konturmarket/konturmarket_urls.py` is modelled only through the URL lookups that `create_sales_journal` makes, which are assumed to succeed (see `KonturMarket.CreateSalesJournal` below).
- `KonturMarket.CreateSalesJournal`: the model assumes that the sales journal read and write URL kinds exist, and that `get_url` returns their URLs. As written, `UrlType` in `konturmarket_urls.py:12-20` declares only `LOGIN` and `EGAIS_ASSORTMENT`, and `get_url` (lines 47-53) has no branch for either journal kind. So `konturmarket_class_lib.py:134` raises `AttributeError` after every successful login, and the model's read, post and write outcomes are never reached as written.
- `GoodsType` in `moysklad_class_lib.py` is left out; it has three members. `AlcoType` of the constants file is modelled.
- base64 encoding of the credentials and `os.getenv` are left out: `GetHeaders` takes the encoded credentials as a string.
- `date.today()` is left out: `GetUrl` takes today's date as a parameter.
- `urljoin(JSON_URL, path)` is modelled as concatenation. This is exact for the relative paths used, because the base ends in `/`.
- `str(float)` of a journal volume is left out: it is the parameter `showVolume`. Floats and `Decimal` are `real`, so float rounding is not modelled.
- Capacities are whole millilitres. For the matcher they form a key compared only for equality, and draft products have none.
- `Matcher.CommercialProduct.capacity`: the matcher compares `capacity_id` of the two products (`app_models_func.py:49-55`), so the model takes the commercial product's capacity to be a foreign key into the container-size table. That is what `common_models.Capacity` and the comment at lines 49-51 describe. The `MoySkladDBGood` model shown in the source declares `capacity` as a `FloatField` (`moysklad_models.py:48`), which has no `capacity_id`; as written, a row with two or more candidates would raise `AttributeError`. This case is not modelled.
- `KonturMarket.JournalEntry.apCode`: the row type of `get_sales_journal_from_db` is not part of this model. The kind code is taken to be an integer, so `str(journal["apCode"])` is modelled as `IntToString`.
- The source's comment says a row with an empty second cell is skipped. The code checks only the row's length, and the model follows the code: a row `[name, ""]` is looked up with code `""`.
- A read response whose `day` is `null`, and a sheet answer without a `values` key, raise in the source. Neither is modelled: the read response is its `ok` flag and row count, and the sheet answer is the list of rows.
- `GoogleSheets.GetData`: the source raises `IndexError` when every row is empty. This is an explicit `IndexError` result, not a precondition.
- `MoySkladUrls.DateFilter`: writes the year in four digits, as `str(date)` does. `strftime("%Y")` on glibc writes years below 1000 without padding, and that case is not modelled.
- `MoySkladGood.ConvertName`: the contract states only the shape of the result: no ` (`, trimmed, and not longer than the head. The exact value is the closed formula of its body, `Strip(CollapseDoubleSpaces(BeforeOpenParen(name)))`. `BeforeOpenParen` and `Strip` are fully characterised by their contracts, and `CollapseDoubleSpaces` by `CollapseFixedPoints` and `CollapseRun`. `ConvertCleanHead` pins the value for heads that are already clean, and `DocstringExample` and `NotIdempotent` pin it for their two examples.
- `MoySkladGood.CollapseDoubleSpaces`: the contract states only length and first character. Its meaning is given by `CollapseFixedPoints` and `CollapseRun`.

=== FILE: dates.dfy ===
/** Calendar dates and their ISO text `YYYY-MM-DD`, as Python's `str(date)` writes them. */
module Dates {
  import opened Wrappers
  import opened Decimal

  datatype Date = Date(year: nat, month: nat, day: nat)

  predicate IsLeap(year: nat) {
    (year % 4 == 0 && year % 100 != 0) || year % 400 == 0
  }

  function DaysInMonth(year: nat, month: nat): (n: nat)
    requires 1 <= month <= 12
    ensures 28 <= n <= 31
  {
    if month == 2 then (if IsLeap(year) then 29 else 28)
    else if month in {4, 6, 9, 11} then 30
    else 31
  }

  /** The range Python's `datetime.date` accepts. */
  predicate Valid(d: Date) {
    && 1 <= d.year <= 9999 && 1 <= d.month <= 12 && 1 <= d.day <= 31
    && d.day <= DaysInMonth(d.year, d.month)
  }

  /** A value of Python's `datetime.date`. */
  type CalendarDate = d: Date | Valid(d) witness Date(2000, 1, 1)

  /** The three fields of `YYYY-MM-DD` sit at fixed offsets. */
  lemma IsoFields(y: string, m: string, dd: string)
    requires |y| == 4 && |m| == 2 && |dd| == 2
    ensures var s := y + "-" + m + "-" + dd;
            |s| == 10 && s[4] == '-' && s[7] == '-' && s[..4] == y && s[5..7] == m && s[8..] == dd
  {
  }

  /** `str(d)`: year padded to four digits, month and day to two, joined by `-`. */
  function Iso(d: Date): (s: string)
    requires Valid(d)
    ensures |s| == 10 && s[4] == '-' && s[7] == '-'
  {
    var y, m, dd := Padded4(d.year), Padded2(d.month), Padded2(d.day);
    IsoFields(y, m, dd);
    y + "-" + m + "-" + dd
  }

  /** Reads `YYYY-MM-DD` back; any other shape has no date. */
  function ParseIso(s: string): (r: Option<Date>)
    ensures r.Some? ==> |s| == 10 && s[4] == '-' && s[7] == '-'
  {
    if |s| == 10 && s[4] == '-' && s[7] == '-' then
      match (ParseNat(s[..4]), ParseNat(s[5..7]), ParseNat(s[8..]))
      case (Some(y), Some(m), Some(dd)) => Some(Date(y, m, dd))
      case _ => None
    else None
  }

  /** Reading back three fixed-width fields joined by `-`. */
  lemma ParseIsoFields(y: string, m: string, dd: string, year: nat, month: nat, day: nat)
    requires |y| == 4 && |m| == 2 && |dd| == 2
    requires ParseNat(y) == Some(year) && ParseNat(m) == Some(month) && ParseNat(dd) == Some(day)
    ensures ParseIso(y + "-" + m + "-" + dd) == Some(Date(year, month, day))
  {
    IsoFields(y, m, dd);
  }

  lemma IsoRoundTrip(d: Date)
    requires Valid(d)
    ensures ParseIso(Iso(d)) == Some(d)
  {
    ParseIsoFields(Padded4(d.year), Padded2(d.month), Padded2(d.day), d.year, d.month, d.day);
  }
}

=== FILE: decimal.dfy ===
/**
 * Decimal text of integers, as Python's `str()` writes an `int`, its inverse,
 * zero padding, and the truncation that Python's `int()` applies to a real value.
 */
module Decimal {
  import opened Wrappers

  predicate IsDigit(c: char) {
    '0' <= c <= '9'
  }

  function DigitChar(d: nat): (c: char)
    requires d < 10
    ensures IsDigit(c)
  {
    (d + '0' as int) as char
  }

  function DigitValue(c: char): (d: nat)
    requires IsDigit(c)
    ensures d < 10
  {
    (c as int - '0' as int) as nat
  }

  lemma DigitRoundTrip(d: nat)
    requires d < 10
    ensures DigitValue(DigitChar(d)) == d
  {
  }

  predicate AllDigits(s: string) {
    forall i :: 0 <= i < |s| ==> IsDigit(s[i])
  }

  /** Shortest decimal text of `n`: no leading zero except for `0` itself. */
  function NatToString(n: nat): (s: string)
    ensures |s| > 0 && AllDigits(s)
    ensures |s| > 1 ==> s[0] != '0'
    decreases n
  {
    if n < 10 then [DigitChar(n)] else NatToString(n / 10) + [DigitChar(n % 10)]
  }

  /** Value of a string of digits, most significant first. */
  function DigitsValue(s: string): (v: nat)
    requires AllDigits(s)
    decreases |s|
  {
    if |s| == 0 then 0 else DigitsValue(s[..|s| - 1]) * 10 + DigitValue(s[|s| - 1])
  }

  /** Python's `int(s)` restricted to plain digit strings; anything else has no value. */
  function ParseNat(s: string): (r: Option<nat>)
    ensures r.Some? <==> |s| > 0 && AllDigits(s)
  {
    if |s| > 0 && AllDigits(s) then Some(DigitsValue(s)) else None
  }

  lemma {:induction false} DigitsValueOfNatToString(n: nat)
    ensures DigitsValue(NatToString(n)) == n
    decreases n
  {
    if n >= 10 {
      var s := NatToString(n / 10) + [DigitChar(n % 10)];
      assert s[..|s| - 1] == NatToString(n / 10);
      DigitsValueOfNatToString(n / 10);
      DigitRoundTrip(n % 10);
    } else {
      DigitRoundTrip(n);
    }
  }

  lemma NatRoundTrip(n: nat)
    ensures ParseNat(NatToString(n)) == Some(n)
  {
    DigitsValueOfNatToString(n);
  }

  /** Python's `str(i)` for an `int`: a minus sign before the magnitude when negative. */
  function IntToString(i: int): (s: string)
    ensures |s| > 0
    ensures i < 0 <==> s[0] == '-'
  {
    if i < 0 then "-" + NatToString(-i) else NatToString(i)
  }

  function ParseInt(s: string): (r: Option<int>)
    ensures r.Some? && |s| > 0 && s[0] == '-' ==> r.value <= 0
  {
    if |s| > 0 && s[0] == '-' then
      match ParseNat(s[1..])
      case Some(n) => Some(-(n as int))
      case None => None
    else
      match ParseNat(s)
      case Some(n) => Some(n as int)
      case None => None
  }

  lemma IntRoundTrip(i: int)
    ensures ParseInt(IntToString(i)) == Some(i)
  {
    if i < 0 {
      assert IntToString(i)[1..] == NatToString(-i);
      NatRoundTrip(-i);
    } else {
      NatRoundTrip(i);
    }
  }

  /** `s` preceded by as many `'0'` as needed to reach `width` characters (`%0Nd`). */
  function PadZeros(s: string, width: nat): (r: string)
    ensures |r| == if |s| < width then width else |s|
    ensures r[|r| - |s|..] == s
    ensures forall i :: 0 <= i < |r| - |s| ==> r[i] == '0'
  {
    if |s| < width then seq(width - |s|, _ => '0') + s else s
  }

  lemma {:induction false} LeadingZerosValue(z: nat, s: string)
    requires AllDigits(s)
    ensures AllDigits(seq(z, _ => '0') + s)
    ensures DigitsValue(seq(z, _ => '0') + s) == DigitsValue(s)
    decreases |s|
  {
    var t := seq(z, _ => '0') + s;
    if |s| == 0 {
      assert t == seq(z, _ => '0');
      ZerosValue(z);
    } else {
      assert t[..|t| - 1] == seq(z, _ => '0') + s[..|s| - 1];
      LeadingZerosValue(z, s[..|s| - 1]);
    }
  }

  lemma {:induction false} ZerosValue(z: nat)
    ensures AllDigits(seq(z, _ => '0'))
    ensures DigitsValue(seq(z, _ => '0')) == 0
    decreases z
  {
    if z > 0 {
      var t := seq(z, _ => '0');
      assert t[..|t| - 1] == seq(z - 1, _ => '0');
      ZerosValue(z - 1);
    }
  }

  /** Zero padding does not change the value read back. */
  lemma PaddedRoundTrip(n: nat, width: nat)
    ensures ParseNat(PadZeros(NatToString(n), width)) == Some(n)
  {
    var s := NatToString(n);
    NatRoundTrip(n);
    if |s| < width {
      LeadingZerosValue(width - |s|, s);
    }
  }

  /** Python's `int(x)` on a number: truncation toward zero. */
  function Trunc(x: real): (r: int)
    ensures 0.0 <= x ==> 0 <= r && r as real <= x < r as real + 1.0
    ensures x < 0.0 ==> r <= 0 && r as real - 1.0 < x <= r as real
  {
    if x >= 0.0 then x.Floor else -((-x).Floor)
  }

  function Pow10(w: nat): (p: nat)
    ensures p >= 1
  {
    if w == 0 then 1 else 10 * Pow10(w - 1)
  }

  /** A number below `10^w` needs at most `w` digits. */
  lemma {:induction false} NatToStringLength(n: nat, w: nat)
    requires w > 0 && n < Pow10(w)
    ensures |NatToString(n)| <= w
    decreases w
  {
    if n >= 10 {
      NatToStringLength(n / 10, w - 1);
    }
  }

  /** `%0wd`: `n` written in exactly `w` digits, leading zeros filled in. */
  function Padded(n: nat, w: nat): (s: string)
    requires 0 < w && n < Pow10(w)
    ensures |s| == w && AllDigits(s)
    ensures ParseNat(s) == Some(n)
  {
    NatToStringLength(n, w);
    PaddedRoundTrip(n, w);
    var s := PadZeros(NatToString(n), w);
    assert AllDigits(s) by {
      var k := |s| - |NatToString(n)|;
      forall i | 0 <= i < |s| ensures IsDigit(s[i]) {
        if i >= k {
          assert s[i] == s[k..][i - k];
        }
      }
    }
    s
  }

  /** `%02d`. */
  function Padded2(n: nat): (s: string)
    requires n < 100
    ensures |s| == 2 && ParseNat(s) == Some(n)
  {
    assert Pow10(2) == 100;
    Padded(n, 2)
  }

  /** `%04d`. */
  function Padded4(n: nat): (s: string)
    requires n < 10000
    ensures |s| == 4 && ParseNat(s) == Some(n)
  {
    assert Pow10(4) == 10000 by {
      assert Pow10(2) == 100;
    }
    Padded(n, 4)
  }
}

=== FILE: googlesheets.dfy ===
/**
 * The post-processing of `GoogleSheets.get_data`: argument guards, then the
 * rows returned by the Sheets service are sorted and the empty rows, which the
 * sort puts first, are skipped.
 */
module GoogleSheets {
  import opened Lex
  import opened Sorting

  /**
   * One sheet row: the cell texts from left to right. In the correspondence
   * sheet that is the commercial name, the excise code, then anything after.
   */
  type Row = seq<string>

  /** `Rows` is a normal return; `IndexError` is the exception the skipping loop raises. */
  datatype SheetData = Rows(rows: seq<Row>) | IndexError

  /** Python's `sorted(values)`: lists of strings in lexicographic order. */
  function SortRows(values: seq<Row>): seq<Row> {
    SortBy(values, (r: Row) => r, RowLeq)
  }

  predicate RowsSorted(rows: seq<Row>) {
    forall i, j :: 0 <= i < j < |rows| ==> RowLeq(rows[i], rows[j])
  }

  /** The non-empty rows of `values`, in order. */
  function NonEmptyRows(values: seq<Row>): (r: seq<Row>)
    ensures forall i :: 0 <= i < |r| ==> r[i] != [] && r[i] in values
  {
    if |values| == 0 then []
    else if values[0] == [] then NonEmptyRows(values[1..])
    else [values[0]] + NonEmptyRows(values[1..])
  }

  lemma {:induction false} NonEmptyRowsCount(values: seq<Row>, x: Row)
    ensures multiset(NonEmptyRows(values))[x] == if x == [] then 0 else multiset(values)[x]
    decreases |values|
  {
    if |values| > 0 {
      NonEmptyRowsCount(values[1..], x);
      assert values == [values[0]] + values[1..];
    }
  }

  lemma SortRowsProperties(values: seq<Row>)
    ensures RowsSorted(SortRows(values))
    ensures multiset(SortRows(values)) == multiset(values)
  {
    var id := (r: Row) => r;
    StrLessStrictTotal();
    forall a: Row, b: Row, c: Row | RowLeq(a, b) && RowLeq(b, c) ensures RowLeq(a, c) {
      LexTransitive(StrLess, a, b, c);
    }
    forall a: Row ensures RowLeq(a, a) {
      LexReflexive(StrLess, a);
    }
    forall a: Row, b: Row ensures RowLeq(a, b) || RowLeq(b, a) {
      LexTotal(StrLess, a, b);
    }
    SortBySorted(values, id, RowLeq);
  }

  /**
   * In a sorted list of rows, once a non-empty row is reached every later row is
   * non-empty too, because the empty row is below every row.
   */
  lemma NoEmptyAfter(sorted: seq<Row>, i: nat)
    requires RowsSorted(sorted)
    requires i < |sorted| && sorted[i] != []
    ensures forall j :: i <= j < |sorted| ==> sorted[j] != []
  {
    forall j | i <= j < |sorted| ensures sorted[j] != [] {
      if j > i && sorted[j] == [] {
        assert RowLeq(sorted[i], []);
        BelowEmpty(StrLess, sorted[i]);
      }
    }
  }

  /**
   * `get_data` once the service has answered with `values`: empty arguments or an
   * empty answer give `[]`; otherwise the sorted non-empty rows, or `IndexError`
   * when every row is empty and the skipping loop runs past the end.
   */
  method GetData(spreadsheetsId: string, listName: string, listRange: string, values: seq<Row>)
    returns (r: SheetData)
    ensures spreadsheetsId == "" || listName == "" || listRange == "" ==> r == Rows([])
    ensures values == [] ==> r == Rows([])
    ensures r == IndexError <==>
              spreadsheetsId != "" && listName != "" && listRange != "" && |values| > 0
              && forall k :: 0 <= k < |values| ==> values[k] == []
    ensures r.Rows? ==> RowsSorted(r.rows)
    ensures r.Rows? ==> forall k :: 0 <= k < |r.rows| ==> r.rows[k] != []
    ensures r.Rows? && spreadsheetsId != "" && listName != "" && listRange != "" ==>
              multiset(r.rows) == multiset(NonEmptyRows(values))
  {
    if spreadsheetsId == "" || listName == "" || listRange == "" {
      return Rows([]);
    }
    if |values| == 0 {
      return Rows([]);
    }
    var sorted := SortRows(values);
    SortRowsProperties(values);
    var i := 0;
    while i < |sorted| && sorted[i] == []
      invariant 0 <= i <= |sorted|
      invariant forall k :: 0 <= k < i ==> sorted[k] == []
    {
      i := i + 1;
    }
    SkipEmptyPrefix(values, sorted, i);
    if i == |sorted| {
      return IndexError;
    }
    return Rows(sorted[i..]);
  }

  /** What is left once the loop of `get_data` has skipped the leading empty rows. */
  lemma SkipEmptyPrefix(values: seq<Row>, sorted: seq<Row>, i: nat)
    requires multiset(sorted) == multiset(values) && RowsSorted(sorted)
    requires i <= |sorted| && forall k :: 0 <= k < i ==> sorted[k] == []
    requires i == |sorted| || sorted[i] != []
    ensures i == |sorted| <==> forall k :: 0 <= k < |values| ==> values[k] == []
    ensures i < |sorted| ==> forall k :: i <= k < |sorted| ==> sorted[k] != []
    ensures i < |sorted| ==> multiset(sorted[i..]) == multiset(NonEmptyRows(values))
  {
    if i == |sorted| {
      forall k | 0 <= k < |values| ensures values[k] == [] {
        assert values[k] in multiset(sorted);
      }
    } else {
      assert sorted[i] in multiset(values);
      NoEmptyAfter(sorted, i);
      SuffixIsNonEmptyRows(values, sorted, i);
    }
  }

  lemma SuffixIsNonEmptyRows(values: seq<Row>, sorted: seq<Row>, i: nat)
    requires multiset(sorted) == multiset(values)
    requires i <= |sorted|
    requires forall k :: 0 <= k < i ==> sorted[k] == []
    requires forall k :: i <= k < |sorted| ==> sorted[k] != []
    ensures multiset(sorted[i..]) == multiset(NonEmptyRows(values))
  {
    var pre, suf := sorted[..i], sorted[i..];
    assert sorted == pre + suf;
    assert multiset(sorted) == multiset(pre) + multiset(suf);
    forall x: Row ensures multiset(suf)[x] == multiset(NonEmptyRows(values))[x] {
      NonEmptyRowsCount(values, x);
      if x != [] {
        assert x !in pre;
      } else {
        assert x !in suf;
      }
    }
    assert multiset(suf) == multiset(NonEmptyRows(values));
  }
}

=== FILE: konturmarket.dfy ===
/**
 * The regulatory catalog's records as the market service returns them, the
 * assortment ordering, and the construction and posting outcome of a daily
 * retail sales journal. Service responses are inputs.
 */
module KonturMarket {
  import opened Wrappers
  import opened Decimal
  import opened Dates
  import opened Lex
  import opened Sorting

  /** `Brewery`: the producer of a regulatory product. */
  datatype Brewery = Brewery(shortName: string, fullName: string, inn: Option<string>, fsrarId: string)

  /** `GoodEGAIS`: a regulatory product. A missing capacity marks a draft product. */
  datatype GoodEGAIS = GoodEGAIS(name: string, alcoCode: string, capacity: Option<real>, brewery: Brewery, kindCode: int)

  /** `StockEGAIS`: stock on the two registers for one product. */
  datatype StockEGAIS = StockEGAIS(quantity1: Option<real>, quantity2: Option<real>, good: GoodEGAIS)

  /** `GoodEGAIS.to_tuple`: (regulatory name, excise code, producer short name). */
  function ToTuple(g: GoodEGAIS): (string, string, string) {
    (g.name, g.alcoCode, g.brewery.shortName)
  }

  /** `GoodEGAIS.get_description`. */
  function GetDescription(g: GoodEGAIS): string {
    "Пивоварня: " + g.brewery.shortName + "  Наименование: " + g.name + "  Код: " + g.alcoCode
  }

  /**
   * The description is the tuple's three fields in a fixed frame: it starts
   * with the producer and ends with the excise code, so two products with
   * the same tuple read the same.
   */
  lemma DescriptionFrame(g: GoodEGAIS)
    ensures var d, t := GetDescription(g), ToTuple(g);
            && d == "Пивоварня: " + t.2 + "  Наименование: " + t.0 + "  Код: " + t.1
            && |d| == 34 + |t.0| + |t.1| + |t.2|
            && d[..11] == "Пивоварня: " && d[11..11 + |t.2|] == t.2
            && d[|d| - |t.1|..] == t.1 && d[|d| - |t.1| - 7..|d| - |t.1|] == "  Код: "
  {
  }

  /** The key of the assortment ordering. */
  function ProducerName(s: StockEGAIS): string {
    s.good.brewery.shortName
  }

  /** The sort of `get_egais_assortment`: stable, by producer short name. */
  function SortAssortment(items: seq<StockEGAIS>): (r: seq<StockEGAIS>)
    ensures multiset(r) == multiset(items)
  {
    SortBy(items, ProducerName, StrLeq)
  }

  lemma StrLeqTotalPreorder()
    ensures TotalPreorder(StrLeq)
  {
    CharLessStrictTotal();
    forall a: string ensures StrLeq(a, a) {
      LexReflexive(CharLess, a);
    }
    forall a: string, b: string, c: string | StrLeq(a, b) && StrLeq(b, c) ensures StrLeq(a, c) {
      LexTransitive(CharLess, a, b, c);
    }
    forall a: string, b: string ensures StrLeq(a, b) || StrLeq(b, a) {
      LexTotal(CharLess, a, b);
    }
  }

  /**
   * The assortment comes back as a permutation of the fetched items, ordered
   * by producer short name, with the items of one producer in fetch order.
   */
  lemma AssortmentOrder(items: seq<StockEGAIS>, producer: string)
    ensures multiset(SortAssortment(items)) == multiset(items)
    ensures forall i, j :: 0 <= i < j < |SortAssortment(items)| ==>
              StrLeq(ProducerName(SortAssortment(items)[i]), ProducerName(SortAssortment(items)[j]))
    ensures WithKey(SortAssortment(items), ProducerName, producer) == WithKey(items, ProducerName, producer)
  {
    StrLeqTotalPreorder();
    SortBySorted(items, ProducerName, StrLeq);
    SortByStable(items, ProducerName, StrLeq, producer);
  }

  /** One line of the sales journal read from the database for a day. */
  datatype JournalEntry = JournalEntry(alcCode: string, apCode: int, volume: real, quantity: real, price: real)

  /** One row of the journal payload sent to the service. */
  datatype PayloadRow = PayloadRow(rowId: string, alcCode: string, apCode: string, volume: string,
                                   quantity: int, price: int, rowType: string)

  /** The journal payload: the day, its rows, and the `writeAutoRows` flag. */
  datatype Payload = Payload(day: string, rows: seq<PayloadRow>, writeAutoRows: bool)

  /**
   * Row `count` of the payload. `str()` of the volume is not modelled; the
   * rendering is the `showVolume` argument.
   */
  function PayloadRowOf(count: nat, entry: JournalEntry, showVolume: real -> string): PayloadRow {
    PayloadRow(NatToString(count + 1), entry.alcCode, IntToString(entry.apCode), showVolume(entry.volume),
               Trunc(entry.quantity), Trunc(entry.price), "New")
  }

  function PayloadRows(journals: seq<JournalEntry>, start: nat, showVolume: real -> string): (rows: seq<PayloadRow>)
    ensures |rows| == |journals|
    ensures forall i :: 0 <= i < |rows| ==> rows[i] == PayloadRowOf(start + i, journals[i], showVolume)
    decreases |journals|
  {
    if |journals| == 0 then []
    else [PayloadRowOf(start, journals[0], showVolume)] + PayloadRows(journals[1..], start + 1, showVolume)
  }

  /** The body posted by `create_sales_journal`. */
  function BuildPayload(date: CalendarDate, journals: seq<JournalEntry>, showVolume: real -> string): (p: Payload)
    ensures |p.rows| == |journals| && p.day == Iso(date) && !p.writeAutoRows
    ensures forall i :: 0 <= i < |journals| ==>
              && p.rows[i].alcCode == journals[i].alcCode
              && p.rows[i].rowType == "New"
              && p.rows[i].volume == showVolume(journals[i].volume)
  {
    Payload(Iso(date), PayloadRows(journals, 0, showVolume), false)
  }

  /** What the service reads back from a payload row, given its printed fields. */
  datatype RowReading = RowReading(rowNumber: nat, alcCode: string, apCode: int, quantity: int, price: int)

  function ReadRow(row: PayloadRow): Option<RowReading> {
    match (ParseNat(row.rowId), ParseInt(row.apCode))
    case (Some(n), Some(a)) => Some(RowReading(n, row.alcCode, a, row.quantity, row.price))
    case _ => None
  }

  /** A row reads back as its number and the entry's fields, quantity and price truncated. */
  lemma RowReadsBack(count: nat, entry: JournalEntry, showVolume: real -> string)
    ensures ReadRow(PayloadRowOf(count, entry, showVolume))
            == Some(RowReading(count + 1, entry.alcCode, entry.apCode, Trunc(entry.quantity), Trunc(entry.price)))
  {
    NatRoundTrip(count + 1);
    IntRoundTrip(entry.apCode);
  }

  /**
   * The payload round trip: row `i` reads back as number `i + 1`, with the
   * entry's excise code and kind code, and its quantity and price truncated
   * toward zero; the day reads back as the date.
   */
  lemma PayloadReadsBack(date: CalendarDate, journals: seq<JournalEntry>, showVolume: real -> string)
    ensures var p := BuildPayload(date, journals, showVolume);
            forall i :: 0 <= i < |journals| ==>
              ReadRow(p.rows[i]) == Some(RowReading(i + 1, journals[i].alcCode, journals[i].apCode,
                                                    Trunc(journals[i].quantity), Trunc(journals[i].price)))
    ensures ParseIso(BuildPayload(date, journals, showVolume).day) == Some(date)
  {
    IsoRoundTrip(date);
    var p := BuildPayload(date, journals, showVolume);
    forall i | 0 <= i < |journals| ensures
      ReadRow(p.rows[i]) == Some(RowReading(i + 1, journals[i].alcCode, journals[i].apCode,
                                            Trunc(journals[i].quantity), Trunc(journals[i].price)))
    {
      assert p.rows[i] == PayloadRowOf(i, journals[i], showVolume);
      RowReadsBack(i, journals[i], showVolume);
    }
  }

  /** The answer to the journal read request: whether it was ok, and how many rows the day holds. */
  datatype ReadResponse = ReadResponse(ok: bool, dayRows: nat)

  /** The payload posted, if any, and the method's return value. */
  datatype JournalRun = JournalRun(posted: Option<Payload>, success: bool)

  /**
   * `create_sales_journal` for `date`, given the outcome of the login, the
   * read of the day's journal, the database journal for the day and the
   * outcome of the write.
   */
  function CreateSalesJournal(date: CalendarDate, loginOk: bool, read: ReadResponse,
                              journals: seq<JournalEntry>, writeOk: bool,
                              showVolume: real -> string): (r: JournalRun)
    ensures r.posted.Some? <==> loginOk && read.ok && read.dayRows == 0 && |journals| > 0
    ensures r.posted.Some? ==> r.posted.value == BuildPayload(date, journals, showVolume)
    ensures r.success <==> r.posted.Some? && writeOk
  {
    if !loginOk then JournalRun(None, false)
    else if read.ok && read.dayRows == 0 then
      if |journals| > 0 then
        JournalRun(Some(BuildPayload(date, journals, showVolume)), writeOk)
      else JournalRun(None, false)
    else JournalRun(None, false)
  }
}

=== FILE: lex.dfy ===
/**
 * Python's ordering of sequences: the first differing element decides, and a
 * proper prefix comes first. Strings compare by code point; lists of strings
 * compare element-wise with the string order.
 */
module Lex {

  /** `less` is a strict total order on `T`. */
  ghost predicate StrictTotal<T(!new)>(less: (T, T) -> bool) {
    && (forall x :: !less(x, x))
    && (forall x, y, z :: less(x, y) && less(y, z) ==> less(x, z))
    && (forall x, y :: x == y || less(x, y) || less(y, x))
  }

  /** `a <= b` in the lexicographic order built on `less`. */
  predicate LexLeq<T(==)>(less: (T, T) -> bool, a: seq<T>, b: seq<T>)
    decreases |a|
  {
    |a| == 0 || (|b| > 0 && (less(a[0], b[0]) || (a[0] == b[0] && LexLeq(less, a[1..], b[1..]))))
  }

  lemma {:induction false} LexReflexive<T(!new)>(less: (T, T) -> bool, a: seq<T>)
    ensures LexLeq(less, a, a)
    decreases |a|
  {
    if |a| > 0 {
      LexReflexive(less, a[1..]);
    }
  }

  lemma {:induction false} LexAntisymmetric<T(!new)>(less: (T, T) -> bool, a: seq<T>, b: seq<T>)
    requires StrictTotal(less)
    requires LexLeq(less, a, b) && LexLeq(less, b, a)
    ensures a == b
    decreases |a|
  {
    if |a| > 0 {
      assert a[0] == b[0];
      LexAntisymmetric(less, a[1..], b[1..]);
      assert a == [a[0]] + a[1..];
      assert b == [b[0]] + b[1..];
    }
  }

  lemma {:induction false} LexTransitive<T(!new)>(less: (T, T) -> bool, a: seq<T>, b: seq<T>, c: seq<T>)
    requires StrictTotal(less)
    requires LexLeq(less, a, b) && LexLeq(less, b, c)
    ensures LexLeq(less, a, c)
    decreases |a|
  {
    if |a| > 0 && a[0] == b[0] && b[0] == c[0] {
      LexTransitive(less, a[1..], b[1..], c[1..]);
    }
  }

  lemma {:induction false} LexTotal<T(!new)>(less: (T, T) -> bool, a: seq<T>, b: seq<T>)
    requires StrictTotal(less)
    ensures LexLeq(less, a, b) || LexLeq(less, b, a)
    decreases |a|
  {
    if |a| > 0 && |b| > 0 && a[0] == b[0] {
      LexTotal(less, a[1..], b[1..]);
    }
  }

  /** The empty sequence is below every sequence. */
  lemma EmptyIsLeast<T(!new)>(less: (T, T) -> bool, b: seq<T>)
    ensures LexLeq(less, [], b)
  {
  }

  /** Only the empty sequence is below the empty sequence. */
  lemma BelowEmpty<T(!new)>(less: (T, T) -> bool, a: seq<T>)
    requires LexLeq(less, a, [])
    ensures a == []
  {
  }

  predicate CharLess(x: char, y: char) {
    x < y
  }

  /** Python's `str < str`: code point by code point. */
  predicate StrLess(a: string, b: string) {
    LexLeq(CharLess, a, b) && a != b
  }

  /** Python's `str <= str`. */
  predicate StrLeq(a: string, b: string) {
    LexLeq(CharLess, a, b)
  }

  /** Python's `list <= list` for lists of strings. */
  predicate RowLeq(a: seq<string>, b: seq<string>) {
    LexLeq(StrLess, a, b)
  }

  lemma CharLessStrictTotal()
    ensures StrictTotal(CharLess)
  {
  }

  lemma StrLessStrictTotal()
    ensures StrictTotal(StrLess)
  {
    CharLessStrictTotal();
    forall a, b, c | StrLess(a, b) && StrLess(b, c) ensures StrLess(a, c) {
      LexTransitive(CharLess, a, b, c);
      if a == c {
        LexAntisymmetric(CharLess, a, b);
      }
    }
    forall a, b ensures a == b || StrLess(a, b) || StrLess(b, a) {
      LexTotal(CharLess, a, b);
    }
  }
}

=== FILE: matcher.dfy ===
/**
 * The correspondence matcher: rows of the correspondence sheet, each a
 * commercial name and an excise code, link commercial products (the
 * inventory service's catalog) to regulatory products (the excise catalog).
 * The database is two catalogs and a link set; the matcher is a fold over
 * the rows that grows the link set and collects the rows it could not use.
 */
module Matcher {
  import opened GoogleSheets


  /**
   * A commercial product as the matcher sees it. `capacity` stands for the
   * product's container-size key (`capacity_id`), which the matcher compares
   * with the regulatory product's key.
   */
  datatype CommercialProduct = CommercialProduct(uuid: string, name: string, brewery: string,
                                                 isDraft: bool, capacity: Capacity)

  /** A regulatory product; the regulatory catalog maps each excise code to one. */
  datatype RegulatoryProduct = RegulatoryProduct(fullName: string, capacity: Capacity)

  /** A container-size key; products without one carry `NoCapacity`. Only equality is used. */
  datatype Capacity = NoCapacity | Millilitres(ml: nat)

  /** One row of the many-to-many relation between the two catalogs. */
  datatype Link = Link(uuid: string, egaisCode: string)

  /**
   * The product name and brewery a commercial name stands for; the brewery
   * may be empty. How a commercial name splits is not part of this model,
   * so every operation takes the split as the `names` argument.
   */
  datatype RowName = RowName(name: string, brewery: string)

  /** One row's effect: the links it adds, or its rejection. */
  datatype Decision = Linked(links: set<Link>) | Rejected

  /**
   * The end of a run: all rows processed, or the lookup of an unknown excise
   * code raised. Links added before the raise stay in the database.
   */
  datatype Outcome = Finished(links: set<Link>, rejected: seq<Row>) | Raised(code: string, links: set<Link>)

  /** The filters of a row on the commercial catalog: same name, not draft, and same brewery when the row has one. */
  predicate Eligible(p: CommercialProduct, rn: RowName) {
    p.name == rn.name && !p.isDraft && (rn.brewery == "" || p.brewery == rn.brewery)
  }

  /** The candidates of a row, in catalog order. */
  function Candidates(catalog: seq<CommercialProduct>, rn: RowName): (r: seq<CommercialProduct>)
    ensures |r| <= |catalog|
    ensures forall p :: p in r <==> p in catalog && Eligible(p, rn)
  {
    if catalog == [] then []
    else if Eligible(catalog[0], rn) then [catalog[0]] + Candidates(catalog[1..], rn)
    else Candidates(catalog[1..], rn)
  }

  /**
   * Each eligible product is a candidate as many times as the catalog holds
   * it, and no other product is: the filter keeps every matching catalog entry once.
   */
  lemma {:induction false} CandidatesCount(catalog: seq<CommercialProduct>, rn: RowName)
    ensures forall p :: multiset(Candidates(catalog, rn))[p] == if Eligible(p, rn) then multiset(catalog)[p] else 0
  {
    if catalog != [] {
      CandidatesCount(catalog[1..], rn);
      assert catalog == [catalog[0]] + catalog[1..];
    }
  }

  /** The candidates whose container size equals `capacity`. */
  function SameCapacity(cands: seq<CommercialProduct>, capacity: Capacity): (r: seq<CommercialProduct>)
    ensures |r| <= |cands|
    ensures forall p :: p in r <==> p in cands && p.capacity == capacity
  {
    if cands == [] then []
    else if cands[0].capacity == capacity then [cands[0]] + SameCapacity(cands[1..], capacity)
    else SameCapacity(cands[1..], capacity)
  }

  /** Links from every product of `ps` to `code`. */
  function LinksTo(ps: seq<CommercialProduct>, code: string): set<Link> {
    set p | p in ps :: Link(p.uuid, code)
  }

  /**
   * The branch on the number of candidates of a row whose excise code is
   * `code`, a code of a regulatory product of size `capacity`.
   */
  function Decide(cands: seq<CommercialProduct>, code: string, capacity: Capacity): (d: Decision)
    ensures d.Linked? ==> d.links != {}
  {
    if |cands| == 0 then Rejected
    else if |cands| >= 2 then
      var same := SameCapacity(cands, capacity);
      if |same| > 0 then
        assert Link(same[0].uuid, code) in LinksTo(same, code);
        Linked(LinksTo(same, code))
      else Rejected
    else Linked({Link(cands[0].uuid, code)})
  }

  /**
   * No candidate: the row is rejected. One: it is linked, whatever its size.
   * Several: exactly those of the regulatory product's size are linked, and
   * the row is rejected when there is none.
   */
  lemma DecideCases(cands: seq<CommercialProduct>, code: string, capacity: Capacity)
    ensures var d := Decide(cands, code, capacity);
      && (d.Linked? ==> forall l :: l in d.links ==>
            l.egaisCode == code && exists p :: p in cands && p.uuid == l.uuid)
      && (|cands| == 0 ==> d.Rejected?)
      && (|cands| == 1 ==> d.Linked? && forall l :: l in d.links <==> l == Link(cands[0].uuid, code))
      && (|cands| >= 2 ==> (d.Rejected? <==> forall p :: p in cands ==> p.capacity != capacity))
      && (|cands| >= 2 && d.Linked? ==>
            forall l :: l in d.links <==>
              l.egaisCode == code && exists p :: p in cands && p.capacity == capacity && p.uuid == l.uuid)
  {
  }

  /**
   * A row with exactly one eligible catalog entry has that product as its
   * only candidate, and links it whatever its container size.
   */
  lemma OneCandidate(catalog: seq<CommercialProduct>, rn: RowName, p: CommercialProduct, code: string, capacity: Capacity)
    requires multiset(catalog)[p] == 1 && Eligible(p, rn)
    requires forall q :: q in catalog && Eligible(q, rn) ==> q == p
    ensures Candidates(catalog, rn) == [p]
    ensures Decide(Candidates(catalog, rn), code, capacity) == Linked({Link(p.uuid, code)})
  {
    var r := Candidates(catalog, rn);
    CandidatesCount(catalog, rn);
    assert multiset(r) == multiset{p} by {
      forall q ensures multiset(r)[q] == multiset{p}[q] {
        if q != p && Eligible(q, rn) {
          assert q !in catalog;
        }
      }
    }
    assert |r| == |multiset(r)| == 1;
    assert r[0] in multiset(r);
  }

  /** A row the run gets past: too short to carry a code, or its code is in the regulatory catalog. */
  predicate Known(row: Row, regulatory: map<string, RegulatoryProduct>) {
    |row| <= 1 || row[1] in regulatory
  }

  /** The first `n` rows are known. */
  predicate KnownUpTo(rows: seq<Row>, n: nat, regulatory: map<string, RegulatoryProduct>)
    requires n <= |rows|
  {
    forall i :: 0 <= i < n ==> Known(rows[i], regulatory)
  }

  /** What one row does. A row of fewer than two fields is rejected as it is. */
  function RowDecision(row: Row, commercial: seq<CommercialProduct>, regulatory: map<string, RegulatoryProduct>,
                       names: string -> RowName): Decision
    requires Known(row, regulatory)
  {
    if |row| <= 1 then Rejected
    else Decide(Candidates(commercial, names(row[0])), row[1], regulatory[row[1]].capacity)
  }

  function RowLinks(row: Row, commercial: seq<CommercialProduct>, regulatory: map<string, RegulatoryProduct>,
                    names: string -> RowName): set<Link>
    requires Known(row, regulatory)
  {
    match RowDecision(row, commercial, regulatory, names)
    case Linked(links) => links
    case Rejected => {}
  }

  /** The links the first `n` rows add. */
  function LinksUpTo(rows: seq<Row>, n: nat, commercial: seq<CommercialProduct>,
                     regulatory: map<string, RegulatoryProduct>, names: string -> RowName): set<Link>
    requires n <= |rows| && KnownUpTo(rows, n, regulatory)
  {
    if n == 0 then {}
    else LinksUpTo(rows, n - 1, commercial, regulatory, names) + RowLinks(rows[n - 1], commercial, regulatory, names)
  }

  /** The rejected rows among the first `n` rows, in their order. */
  function RejectedUpTo(rows: seq<Row>, n: nat, commercial: seq<CommercialProduct>,
                        regulatory: map<string, RegulatoryProduct>, names: string -> RowName): seq<Row>
    requires n <= |rows| && KnownUpTo(rows, n, regulatory)
  {
    if n == 0 then []
    else
      RejectedUpTo(rows, n - 1, commercial, regulatory, names)
      + (if RowDecision(rows[n - 1], commercial, regulatory, names).Rejected? then [rows[n - 1]] else [])
  }

  /** The first row whose excise code is not in the regulatory catalog. */
  function FirstUnknown(rows: seq<Row>, regulatory: map<string, RegulatoryProduct>): (k: nat)
    requires !KnownUpTo(rows, |rows|, regulatory)
    ensures k < |rows| && !Known(rows[k], regulatory) && KnownUpTo(rows, k, regulatory)
  {
    if !Known(rows[0], regulatory) then 0
    else
      var k := 1 + FirstUnknown(rows[1..], regulatory);
      assert forall j :: 1 <= j < k ==> rows[j] == rows[1..][j - 1];
      k
  }

  /**
   * The run over the whole table, row by row: every row is known and the
   * run finishes, or it stops at the first unknown excise code with the
   * links of the rows before it.
   */
  function Match(table: seq<Row>, commercial: seq<CommercialProduct>, regulatory: map<string, RegulatoryProduct>,
                 names: string -> RowName, links0: set<Link>): (r: Outcome)
    ensures links0 <= r.links
    ensures r.Finished? <==> forall i :: 0 <= i < |table| && |table[i]| > 1 ==> table[i][1] in regulatory
    ensures r.Raised? ==> r.code !in regulatory && exists i :: 0 <= i < |table| && |table[i]| > 1 && table[i][1] == r.code
  {
    if KnownUpTo(table, |table|, regulatory) then
      Finished(links0 + LinksUpTo(table, |table|, commercial, regulatory, names),
               RejectedUpTo(table, |table|, commercial, regulatory, names))
    else
      var k := FirstUnknown(table, regulatory);
      Raised(table[k][1], links0 + LinksUpTo(table, k, commercial, regulatory, names))
  }

  lemma FirstUnknownAt(rows: seq<Row>, regulatory: map<string, RegulatoryProduct>, i: nat)
    requires i < |rows| && KnownUpTo(rows, i, regulatory) && !Known(rows[i], regulatory)
    ensures !KnownUpTo(rows, |rows|, regulatory) && FirstUnknown(rows, regulatory) == i
  {
  }

  /** An empty table returns no rows and adds no link. */
  lemma EmptyTable(commercial: seq<CommercialProduct>, regulatory: map<string, RegulatoryProduct>,
                   names: string -> RowName, links0: set<Link>)
    ensures Match([], commercial, regulatory, names, links0) == Finished(links0, [])
  {
  }

  /** The inner loop over same-size candidates: each one is linked to `code`. */
  method LinkAll(same: seq<CommercialProduct>, code: string, links: set<Link>) returns (links': set<Link>)
    ensures links' == links + LinksTo(same, code)
  {
    links' := links;
    var j := 0;
    while j < |same|
      invariant 0 <= j <= |same|
      invariant links' == links + LinksTo(same[..j], code)
    {
      assert same[..j + 1] == same[..j] + [same[j]];
      links' := links' + {Link(same[j].uuid, code)};
      j := j + 1;
    }
    assert same[..j] == same;
  }

  /** One pass of the loop body: the row's links are added, or the row is appended to the rejected rows. */
  method ApplyRow(row: Row, commercial: seq<CommercialProduct>, regulatory: map<string, RegulatoryProduct>,
                  names: string -> RowName, links: set<Link>, rejected: seq<Row>)
    returns (links': set<Link>, rejected': seq<Row>)
    requires Known(row, regulatory)
    ensures links' == links + RowLinks(row, commercial, regulatory, names)
    ensures rejected' == rejected + (if RowDecision(row, commercial, regulatory, names).Rejected? then [row] else [])
  {
    links', rejected' := links, rejected;
    if |row| > 1 {
      var capacity := regulatory[row[1]].capacity;
      var cands := Candidates(commercial, names(row[0]));
      if |cands| == 0 {
        rejected' := rejected + [row];
      } else if |cands| >= 2 {
        var same := SameCapacity(cands, capacity);
        if |same| > 0 {
          links' := LinkAll(same, row[1], links);
        } else {
          rejected' := rejected + [row];
        }
      } else {
        links' := links + {Link(cands[0].uuid, row[1])};
      }
    } else {
      rejected' := rejected + [row];
    }
  }

  /**
   * `db_set_matches`: the table's rows in order, as the loop of the source
   * runs them. `links0` is the link set before the call.
   */
  method DbSetMatches(table: seq<Row>, commercial: seq<CommercialProduct>, regulatory: map<string, RegulatoryProduct>,
                      names: string -> RowName, links0: set<Link>) returns (r: Outcome)
    ensures r == Match(table, commercial, regulatory, names, links0)
  {
    if |table| == 0 {
      return Finished(links0, []);
    }
    var links := links0;
    var rejected: seq<Row> := [];
    var i := 0;
    while i < |table|
      invariant 0 <= i <= |table|
      invariant KnownUpTo(table, i, regulatory)
      invariant links == links0 + LinksUpTo(table, i, commercial, regulatory, names)
      invariant rejected == RejectedUpTo(table, i, commercial, regulatory, names)
    {
      var row := table[i];
      if !Known(row, regulatory) {
        FirstUnknownAt(table, regulatory, i);
        return Raised(row[1], links);
      }
      links, rejected := ApplyRow(row, commercial, regulatory, names, links, rejected);
      i := i + 1;
    }
    return Finished(links, rejected);
  }

  /**
   * A link was added for a row of the table: its excise code is the row's,
   * the code is in the regulatory catalog, and the linked product passes the
   * row's filters.
   */
  ghost predicate Justified(l: Link, table: seq<Row>, n: nat, commercial: seq<CommercialProduct>,
                            regulatory: map<string, RegulatoryProduct>, names: string -> RowName)
    requires n <= |table|
  {
    && l.egaisCode in regulatory
    && exists i :: 0 <= i < n && |table[i]| > 1 && table[i][1] == l.egaisCode
         && exists p :: p in commercial && p.uuid == l.uuid && Eligible(p, names(table[i][0]))
  }

  lemma {:induction false} LinksUpToJustified(rows: seq<Row>, n: nat, commercial: seq<CommercialProduct>,
                                               regulatory: map<string, RegulatoryProduct>, names: string -> RowName)
    requires n <= |rows| && KnownUpTo(rows, n, regulatory)
    ensures forall l :: l in LinksUpTo(rows, n, commercial, regulatory, names) ==>
              Justified(l, rows, n, commercial, regulatory, names)
  {
    if n > 0 {
      LinksUpToJustified(rows, n - 1, commercial, regulatory, names);
      var row := rows[n - 1];
      forall l | l in LinksUpTo(rows, n, commercial, regulatory, names)
        ensures Justified(l, rows, n, commercial, regulatory, names)
      {
        if l in RowLinks(row, commercial, regulatory, names) {
          var cands := Candidates(commercial, names(row[0]));
          DecideCases(cands, row[1], regulatory[row[1]].capacity);
          var p :| p in cands && p.uuid == l.uuid;
          assert p in commercial && Eligible(p, names(rows[n - 1][0]));
        } else {
          assert Justified(l, rows, n - 1, commercial, regulatory, names);
          var i :| 0 <= i < n - 1 && |rows[i]| > 1 && rows[i][1] == l.egaisCode
                   && exists p :: p in commercial && p.uuid == l.uuid && Eligible(p, names(rows[i][0]));
        }
      }
    }
  }

  /** The links of every processed row are among the links the run adds. */
  lemma {:induction false} RowLinksCollected(rows: seq<Row>, n: nat, commercial: seq<CommercialProduct>,
                                             regulatory: map<string, RegulatoryProduct>, names: string -> RowName)
    requires n <= |rows| && KnownUpTo(rows, n, regulatory)
    ensures forall i :: 0 <= i < n ==> RowLinks(rows[i], commercial, regulatory, names)
                                        <= LinksUpTo(rows, n, commercial, regulatory, names)
  {
    if n > 0 {
      RowLinksCollected(rows, n - 1, commercial, regulatory, names);
      var before := LinksUpTo(rows, n - 1, commercial, regulatory, names);
      assert LinksUpTo(rows, n, commercial, regulatory, names)
          == before + RowLinks(rows[n - 1], commercial, regulatory, names);
      forall i | 0 <= i < n
        ensures RowLinks(rows[i], commercial, regulatory, names) <= LinksUpTo(rows, n, commercial, regulatory, names)
      {
        if i < n - 1 {
          assert RowLinks(rows[i], commercial, regulatory, names) <= before;
        }
      }
    }
  }

  /** Each processed row adds at least one link or is rejected, never both. */
  lemma {:induction false} RejectedIffNoLinks(rows: seq<Row>, n: nat, commercial: seq<CommercialProduct>,
                                              regulatory: map<string, RegulatoryProduct>, names: string -> RowName)
    requires n <= |rows| && KnownUpTo(rows, n, regulatory)
    ensures forall i :: 0 <= i < n ==>
              ((rows[i] in RejectedUpTo(rows, n, commercial, regulatory, names))
                 <==> RowLinks(rows[i], commercial, regulatory, names) == {})
  {
    if n > 0 {
      RejectedIffNoLinks(rows, n - 1, commercial, regulatory, names);
      var last := rows[n - 1];
      var before := RejectedUpTo(rows, n - 1, commercial, regulatory, names);
      var now := RejectedUpTo(rows, n, commercial, regulatory, names);
      var dropped := RowDecision(last, commercial, regulatory, names).Rejected?;
      assert now == before + (if dropped then [last] else []);
      assert dropped <==> RowLinks(last, commercial, regulatory, names) == {};
      forall i | 0 <= i < n
        ensures (rows[i] in now) <==> RowLinks(rows[i], commercial, regulatory, names) == {}
      {
        if rows[i] != last {
          assert i < n - 1;
          assert rows[i] in now <==> rows[i] in before;
        } else if dropped {
          assert rows[i] in now;
        } else if rows[i] in before {
          RejectedFromTable(rows, n - 1, commercial, regulatory, names);
        }
      }
    }
  }

  /** The indices below `n` of the rows that add no link. */
  function NoLinkRows(rows: seq<Row>, n: nat, commercial: seq<CommercialProduct>,
                      regulatory: map<string, RegulatoryProduct>, names: string -> RowName): set<nat>
    requires n <= |rows| && KnownUpTo(rows, n, regulatory)
  {
    set i: nat | i < n && RowLinks(rows[i], commercial, regulatory, names) == {}
  }

  /**
   * One rejected entry per row that adds no link: a row that occurs twice in
   * the table and adds nothing is returned twice.
   */
  lemma {:induction false} RejectedCount(rows: seq<Row>, n: nat, commercial: seq<CommercialProduct>,
                                         regulatory: map<string, RegulatoryProduct>, names: string -> RowName)
    requires n <= |rows| && KnownUpTo(rows, n, regulatory)
    ensures |RejectedUpTo(rows, n, commercial, regulatory, names)| == |NoLinkRows(rows, n, commercial, regulatory, names)|
  {
    if n > 0 {
      RejectedCount(rows, n - 1, commercial, regulatory, names);
      NoLinkRowsStep(rows, n, commercial, regulatory, names);
      var last := rows[n - 1];
      assert RowDecision(last, commercial, regulatory, names).Rejected?
         <==> RowLinks(last, commercial, regulatory, names) == {};
    }
  }

  /** Row `n - 1` adds one index to the no-link rows exactly when it adds no link. */
  lemma NoLinkRowsStep(rows: seq<Row>, n: nat, commercial: seq<CommercialProduct>,
                       regulatory: map<string, RegulatoryProduct>, names: string -> RowName)
    requires 0 < n <= |rows| && KnownUpTo(rows, n, regulatory)
    ensures |NoLinkRows(rows, n, commercial, regulatory, names)|
         == |NoLinkRows(rows, n - 1, commercial, regulatory, names)|
            + if RowLinks(rows[n - 1], commercial, regulatory, names) == {} then 1 else 0
  {
    var before := NoLinkRows(rows, n - 1, commercial, regulatory, names);
    var now := NoLinkRows(rows, n, commercial, regulatory, names);
    var added: set<nat> := if RowLinks(rows[n - 1], commercial, regulatory, names) == {} then {n - 1} else {};
    forall j: nat ensures j in now <==> j in before + added {
    }
    assert now == before + added;
    assert n - 1 !in before;
  }

  /** Every rejected row is a row of the table. */
  lemma {:induction false} RejectedFromTable(rows: seq<Row>, n: nat, commercial: seq<CommercialProduct>,
                                             regulatory: map<string, RegulatoryProduct>, names: string -> RowName)
    requires n <= |rows| && KnownUpTo(rows, n, regulatory)
    ensures forall row :: row in RejectedUpTo(rows, n, commercial, regulatory, names) ==>
              exists i :: 0 <= i < n && rows[i] == row
  {
    if n > 0 {
      RejectedFromTable(rows, n - 1, commercial, regulatory, names);
    }
  }

  /** `a` is `b` with some elements left out, the rest in their order. */
  predicate IsSubsequence<T(==)>(a: seq<T>, b: seq<T>)
    decreases |b|
  {
    || a == []
    || (&& b != []
        && (|| (a[|a| - 1] == b[|b| - 1] && IsSubsequence(a[..|a| - 1], b[..|b| - 1]))
            || IsSubsequence(a, b[..|b| - 1])))
  }

  lemma {:induction false} RejectedInOrder(rows: seq<Row>, n: nat, commercial: seq<CommercialProduct>,
                                            regulatory: map<string, RegulatoryProduct>, names: string -> RowName)
    requires n <= |rows| && KnownUpTo(rows, n, regulatory)
    ensures IsSubsequence(RejectedUpTo(rows, n, commercial, regulatory, names), rows[..n])
  {
    if n > 0 {
      RejectedInOrder(rows, n - 1, commercial, regulatory, names);
      assert rows[..n][..n - 1] == rows[..n - 1];
      var a := RejectedUpTo(rows, n, commercial, regulatory, names);
      var b := rows[..n];
      assert b != [] && b[|b| - 1] == rows[n - 1];
      if RowDecision(rows[n - 1], commercial, regulatory, names).Rejected? {
        assert a[|a| - 1] == rows[n - 1];
        assert a[..|a| - 1] == RejectedUpTo(rows, n - 1, commercial, regulatory, names);
      } else {
        assert a == RejectedUpTo(rows, n - 1, commercial, regulatory, names);
        assert b[..|b| - 1] == rows[..n - 1];
      }
    }
  }

  /**
   * A finished run: every row of the table either adds its links or is
   * returned, never both; rows of fewer than two fields are returned; the
   * returned rows keep the table's order, one entry per row that adds no link
   * (duplicates included); and every new link comes from a row of the table.
   */
  lemma FinishedRun(table: seq<Row>, commercial: seq<CommercialProduct>, regulatory: map<string, RegulatoryProduct>,
                    names: string -> RowName, links0: set<Link>)
    requires Match(table, commercial, regulatory, names, links0).Finished?
    ensures var r := Match(table, commercial, regulatory, names, links0);
      && (forall i :: 0 <= i < |table| ==>
            && Known(table[i], regulatory)
            && RowLinks(table[i], commercial, regulatory, names) <= r.links
            && (table[i] in r.rejected <==> RowLinks(table[i], commercial, regulatory, names) == {}))
      && (forall i :: 0 <= i < |table| && |table[i]| <= 1 ==> table[i] in r.rejected)
      && (forall row :: row in r.rejected ==> row in table)
      && IsSubsequence(r.rejected, table)
      && |r.rejected| == |set i: nat | i < |table| && RowLinks(table[i], commercial, regulatory, names) == {}|
      && (forall l :: l in r.links ==> l in links0 || Justified(l, table, |table|, commercial, regulatory, names))
  {
    RejectedCount(table, |table|, commercial, regulatory, names);
    RowLinksCollected(table, |table|, commercial, regulatory, names);
    RejectedIffNoLinks(table, |table|, commercial, regulatory, names);
    RejectedFromTable(table, |table|, commercial, regulatory, names);
    RejectedInOrder(table, |table|, commercial, regulatory, names);
    LinksUpToJustified(table, |table|, commercial, regulatory, names);
    assert table[..|table|] == table;
  }

  /**
   * A raised run stops at the first unknown excise code and reports it; the
   * links added before the raise come from rows before that code.
   */
  lemma RaisedRun(table: seq<Row>, commercial: seq<CommercialProduct>, regulatory: map<string, RegulatoryProduct>,
                  names: string -> RowName, links0: set<Link>)
    requires Match(table, commercial, regulatory, names, links0).Raised?
    ensures !KnownUpTo(table, |table|, regulatory)
    ensures var r, k := Match(table, commercial, regulatory, names, links0), FirstUnknown(table, regulatory);
      && r.code == table[k][1]
      && forall l :: l in r.links ==> l in links0 || Justified(l, table, k, commercial, regulatory, names)
  {
    LinksUpToJustified(table, FirstUnknown(table, regulatory), commercial, regulatory, names);
  }

  /**
   * Links are only added: running again over the same table, starting from
   * the links of a first run, gives the same outcome.
   */
  lemma Rerun(table: seq<Row>, commercial: seq<CommercialProduct>, regulatory: map<string, RegulatoryProduct>,
              names: string -> RowName, links0: set<Link>)
    ensures var r := Match(table, commercial, regulatory, names, links0);
      links0 <= r.links && Match(table, commercial, regulatory, names, r.links) == r
  {
  }

  const Bottle := CommercialProduct("u1", "Black Jesus", "4Пивовара", false, Millilitres(500))
  const Can := CommercialProduct("u2", "Black Jesus", "4Пивовара", false, Millilitres(330))
  const Draft := CommercialProduct("u3", "Black Jesus", "4Пивовара", true, NoCapacity)
  const ScenarioRegulatory := map["0300" := RegulatoryProduct("Black Jesus 0,5", Millilitres(500))]
  const ScenarioNames: string -> RowName := (s: string) => RowName("Black Jesus", "4Пивовара")
  const ScenarioTable: seq<Row> := [["4Пивовара - Black Jesus", "0300"], ["Barbe Ruby"]]

  /** The coded row links the 0.5 L bottling alone; the row without a code is rejected. */
  lemma ScenarioRows()
    ensures KnownUpTo(ScenarioTable, 2, ScenarioRegulatory)
    ensures RowDecision(ScenarioTable[0], [Bottle, Can, Draft], ScenarioRegulatory, ScenarioNames)
         == Linked({Link("u1", "0300")})
    ensures RowDecision(ScenarioTable[1], [Bottle, Can, Draft], ScenarioRegulatory, ScenarioNames) == Rejected
  {
    var rn := ScenarioNames("4Пивовара - Black Jesus");
    assert [Bottle, Can, Draft][1..] == [Can, Draft] && [Can, Draft][1..] == [Draft] && [Draft][1..] == [];
    assert Candidates([Draft], rn) == [];
    assert Candidates([Bottle, Can, Draft], rn) == [Bottle, Can];
    assert [Bottle, Can][1..] == [Can] && [Can][1..] == [];
    assert SameCapacity([Bottle, Can], Millilitres(500)) == [Bottle];
    assert LinksTo([Bottle], "0300") == {Link("u1", "0300")};
    assert ScenarioTable[0][1] == "0300" && ScenarioTable[0][0] == "4Пивовара - Black Jesus";
    assert Decide([Bottle, Can], "0300", Millilitres(500)) == Linked({Link("u1", "0300")});
  }

  /**
   * Two bottlings of one beer and a draft one: the row's code names the
   * 0.5 L product, so only the 0.5 L bottling is linked; a row without a
   * code comes back as it is.
   */
  lemma CapacityScenario()
    ensures Match(ScenarioTable, [Bottle, Can, Draft], ScenarioRegulatory, ScenarioNames, {})
         == Finished({Link("u1", "0300")}, [["Barbe Ruby"]])
  {
    var table, commercial := ScenarioTable, [Bottle, Can, Draft];
    ScenarioRows();
    assert KnownUpTo(table, 1, ScenarioRegulatory) && KnownUpTo(table, 0, ScenarioRegulatory);
    assert RowLinks(table[0], commercial, ScenarioRegulatory, ScenarioNames) == {Link("u1", "0300")};
    assert RowLinks(table[1], commercial, ScenarioRegulatory, ScenarioNames) == {};
    assert LinksUpTo(table, 1, commercial, ScenarioRegulatory, ScenarioNames) == {Link("u1", "0300")};
    assert RejectedUpTo(table, 1, commercial, ScenarioRegulatory, ScenarioNames) == [];
    assert LinksUpTo(table, 2, commercial, ScenarioRegulatory, ScenarioNames) == {Link("u1", "0300")};
    assert RejectedUpTo(table, 2, commercial, ScenarioRegulatory, ScenarioNames) == [["Barbe Ruby"]];
  }
}

=== FILE: moysklad_constants.dfy ===
/**
 * Lookup tables and enumerations used when commercial catalog names are
 * parsed: noise suffixes, container sizes, beverage kinds and the tokens of
 * the numeric characteristics.
 */
module MoySkladConstants {
  import opened Wrappers
  import opened Decimal

  /** `_TRASH`: noise suffixes stripped from raw product names. */
  const Trash: seq<string> := [" (0,75)", " (0,33)", " Бутылка 0,75", " ж\\б", " (ж/б)", " (0,5)"]

  /**
   * `_MODIFICATION_SET`: container-size modification name to capacity. The
   * source stores litres as floats; here they are whole millilitres.
   */
  const ModificationSet: map<string, nat> := map[
    "Банка 0,33" := 330,
    "Банка 0,45" := 450,
    "Бутылка 0,33" := 330,
    "Бутылка 0,375" := 375,
    "Бутылка 0,5" := 500,
    "Бутылка 0,75" := 750,
    "ж.б 0,33" := 330,
    "ж/б 0,5" := 500
  ]

  /** The capacities the size table can yield. */
  const Capacities: set<nat> := {330, 375, 450, 500, 750}

  lemma TrashShape()
    ensures |Trash| == 6
    ensures forall i :: 0 <= i < |Trash| ==> |Trash[i]| > 1 && Trash[i][0] == ' '
    ensures forall i, j :: 0 <= i < j < |Trash| ==> Trash[i] != Trash[j]
  {
  }

  lemma ModificationSetShape()
    ensures |ModificationSet.Keys| == 8
    ensures forall k :: k in ModificationSet ==> ModificationSet[k] in Capacities
  {
    ModificationSetEntries();
    var keys := ["Банка 0,33", "Банка 0,45", "Бутылка 0,33", "Бутылка 0,375",
                 "Бутылка 0,5", "Бутылка 0,75", "ж.б 0,33", "ж/б 0,5"];
    assert keys[0][8] != keys[1][8] && keys[2][10] != keys[5][10];
    assert ModificationSet.Keys == set k | k in keys;
    DistinctCard(keys);
  }

  lemma {:induction false} DistinctCard(keys: seq<string>)
    requires forall i, j :: 0 <= i < j < |keys| ==> keys[i] != keys[j]
    ensures |set k | k in keys| == |keys|
    decreases |keys|
  {
    if |keys| > 0 {
      var rest := keys[..|keys| - 1];
      DistinctCard(rest);
      assert (set k | k in keys) == (set k | k in rest) + {keys[|keys| - 1]};
    }
  }

  /**
   * The Russian decimal notation of a capacity below one litre, as the size
   * names write it: `0,33`, `0,375`, `0,5` (no trailing zeros).
   */
  function LitresLabel(ml: nat): (s: string)
    requires 0 < ml < 1000
    ensures 3 <= |s| <= 5 && s[..2] == "0,"
    ensures s[|s| - 1] != '0'
    ensures AllDigits(s[2..]) && DigitsValue(s[2..]) * Pow10(5 - |s|) == ml
  {
    var tenths, hundredths, thousandths := ml / 100, ml / 10 % 10, ml % 10;
    ThousandthsOf(ml);
    DigitsReadBack(tenths, hundredths, thousandths);
    var digits := if thousandths != 0 then [DigitChar(tenths), DigitChar(hundredths), DigitChar(thousandths)]
                  else if hundredths != 0 then [DigitChar(tenths), DigitChar(hundredths)]
                  else [DigitChar(tenths)];
    assert Pow10(5 - (2 + |digits|)) == if thousandths != 0 then 1 else if hundredths != 0 then 10 else 100 by {
      assert Pow10(2) == 100;
    }
    assert ("0," + digits)[2..] == digits;
    "0," + digits
  }

  /** A capacity below one litre in tenths, hundredths and thousandths of a litre. */
  lemma ThousandthsOf(ml: nat)
    requires ml < 1000
    ensures ml / 100 < 10 && ml / 10 % 10 < 10
    ensures ml == (ml / 100 * 10 + ml / 10 % 10) * 10 + ml % 10
  {
  }

  /** The values of the one-, two- and three-digit texts of a capacity's digits. */
  lemma DigitsReadBack(a: nat, b: nat, c: nat)
    requires a < 10 && b < 10 && c < 10
    ensures AllDigits([DigitChar(a)]) && DigitsValue([DigitChar(a)]) == a
    ensures AllDigits([DigitChar(a), DigitChar(b)]) && DigitsValue([DigitChar(a), DigitChar(b)]) == a * 10 + b
    ensures AllDigits([DigitChar(a), DigitChar(b), DigitChar(c)])
            && DigitsValue([DigitChar(a), DigitChar(b), DigitChar(c)]) == (a * 10 + b) * 10 + c
  {
    var s3 := [DigitChar(a), DigitChar(b), DigitChar(c)];
    assert s3[..2] == [DigitChar(a), DigitChar(b)] && s3[..2][..1] == [DigitChar(a)];
    assert [DigitChar(a)][..0] == [];
    DigitRoundTrip(a);
    DigitRoundTrip(b);
    DigitRoundTrip(c);
  }

  lemma LitresLabelValues()
    ensures LitresLabel(330) == "0,33" && LitresLabel(375) == "0,375" && LitresLabel(450) == "0,45"
    ensures LitresLabel(500) == "0,5" && LitresLabel(750) == "0,75"
  {
    LitresLabelOf(330, '3', '3', '0');
    LitresLabelOf(375, '3', '7', '5');
    LitresLabelOf(450, '4', '5', '0');
    LitresLabelOf(500, '5', '0', '0');
    LitresLabelOf(750, '7', '5', '0');
  }

  /** The label of a capacity whose three digits in thousandths of a litre are `a`, `b`, `c`. */
  lemma LitresLabelOf(ml: nat, a: char, b: char, c: char)
    requires 0 < ml < 1000 && IsDigit(a) && IsDigit(b) && IsDigit(c)
    requires ml / 100 == DigitValue(a) && ml / 10 % 10 == DigitValue(b) && ml % 10 == DigitValue(c)
    ensures LitresLabel(ml) == "0," + (if c != '0' then [a, b, c] else if b != '0' then [a, b] else [a])
  {
    assert DigitChar(DigitValue(a)) == a && DigitChar(DigitValue(b)) == b && DigitChar(DigitValue(c)) == c;
  }

  /** A size name `head + " " + digits` ends with the capacity `ml` written in litres, when `digits` is that text. */
  lemma NamedSize(head: string, digits: string, ml: nat)
    requires 0 < ml < 1000 && LitresLabel(ml) == digits
    ensures EndsWith(head + " " + digits, " " + LitresLabel(ml))
  {
    var s := head + " " + digits;
    assert s[|s| - |" " + digits|..] == " " + digits;
  }

  /** The table's eight entries, read back one by one. */
  lemma ModificationSetEntries()
    ensures ModificationSet.Keys == {"Банка 0,33", "Банка 0,45", "Бутылка 0,33", "Бутылка 0,375",
                                     "Бутылка 0,5", "Бутылка 0,75", "ж.б 0,33", "ж/б 0,5"}
    ensures ModificationSet["Банка 0,33"] == 330 && ModificationSet["Банка 0,45"] == 450
    ensures ModificationSet["Бутылка 0,33"] == 330 && ModificationSet["Бутылка 0,375"] == 375
    ensures ModificationSet["Бутылка 0,5"] == 500 && ModificationSet["Бутылка 0,75"] == 750
    ensures ModificationSet["ж.б 0,33"] == 330 && ModificationSet["ж/б 0,5"] == 500
  {
    assert "Банка 0,33"[8] != "Банка 0,45"[8];
    assert "Бутылка 0,33"[10] != "Бутылка 0,75"[10];
  }

  /** The can sizes end with their capacities in litres. */
  lemma CanSizeNames()
    ensures EndsWith("Банка 0,33", " " + LitresLabel(330)) && EndsWith("Банка 0,45", " " + LitresLabel(450))
    ensures EndsWith("ж.б 0,33", " " + LitresLabel(330)) && EndsWith("ж/б 0,5", " " + LitresLabel(500))
  {
    LitresLabelValues();
    NamedSize("Банка", "0,33", 330);
    NamedSize("Банка", "0,45", 450);
    NamedSize("ж.б", "0,33", 330);
    NamedSize("ж/б", "0,5", 500);
    assert "Банка" + " " + "0,33" == "Банка 0,33";
    assert "Банка" + " " + "0,45" == "Банка 0,45";
    assert "ж.б" + " " + "0,33" == "ж.б 0,33";
    assert "ж/б" + " " + "0,5" == "ж/б 0,5";
  }

  /** The bottle sizes end with their capacities in litres. */
  lemma BottleSizeNames()
    ensures EndsWith("Бутылка 0,33", " " + LitresLabel(330)) && EndsWith("Бутылка 0,375", " " + LitresLabel(375))
    ensures EndsWith("Бутылка 0,5", " " + LitresLabel(500)) && EndsWith("Бутылка 0,75", " " + LitresLabel(750))
  {
    LitresLabelValues();
    NamedSize("Бутылка", "0,33", 330);
    NamedSize("Бутылка", "0,375", 375);
    NamedSize("Бутылка", "0,5", 500);
    NamedSize("Бутылка", "0,75", 750);
    assert "Бутылка" + " " + "0,33" == "Бутылка 0,33";
    assert "Бутылка" + " " + "0,375" == "Бутылка 0,375";
    assert "Бутылка" + " " + "0,5" == "Бутылка 0,5";
    assert "Бутылка" + " " + "0,75" == "Бутылка 0,75";
  }

  /** Every size name ends with the capacity it maps to, written in litres. */
  lemma LabelsMatchCapacities()
    ensures forall k :: k in ModificationSet ==> EndsWith(k, " " + LitresLabel(ModificationSet[k]))
  {
    ModificationSetEntries();
    CanSizeNames();
    BottleSizeNames();
  }

  predicate EndsWith(s: string, suffix: string) {
    |suffix| <= |s| && s[|s| - |suffix|..] == suffix
  }

  /** `GoodType`: the beverage kinds of the commercial catalog. */
  datatype GoodType = Beer | Cider | Kombucha | Lemonade | Mead | Other

  const AllGoodTypes: seq<GoodType> := [Beer, Cider, Kombucha, Lemonade, Mead, Other]

  /** A member's value; in the source each value is a one-element tuple, here a one-element sequence. */
  function GoodTypeValue(t: GoodType): (v: seq<string>)
    ensures |v| == 1
  {
    match t
    case Beer => ["beer"]
    case Cider => ["cider"]
    case Kombucha => ["kombucha"]
    case Lemonade => ["lemonade"]
    case Mead => ["mead"]
    case Other => ["other"]
  }

  /** `GoodType(value)`: the member with this value, if any. */
  function GoodTypeOf(v: seq<string>): (r: Option<GoodType>)
    ensures r.Some? ==> r.value in AllGoodTypes
  {
    if |v| != 1 then None
    else if v[0] == "beer" then Some(Beer)
    else if v[0] == "cider" then Some(Cider)
    else if v[0] == "kombucha" then Some(Kombucha)
    else if v[0] == "lemonade" then Some(Lemonade)
    else if v[0] == "mead" then Some(Mead)
    else if v[0] == "other" then Some(Other)
    else None
  }

  /** Exactly six members, listed once each. */
  lemma GoodTypeMembers()
    ensures |AllGoodTypes| == 6
    ensures forall t: GoodType :: t in AllGoodTypes
    ensures forall i, j :: 0 <= i < j < |AllGoodTypes| ==> AllGoodTypes[i] != AllGoodTypes[j]
  {
    forall t: GoodType ensures t in AllGoodTypes {
      match t
      case Beer => assert AllGoodTypes[0] == t;
      case Cider => assert AllGoodTypes[1] == t;
      case Kombucha => assert AllGoodTypes[2] == t;
      case Lemonade => assert AllGoodTypes[3] == t;
      case Mead => assert AllGoodTypes[4] == t;
      case Other => assert AllGoodTypes[5] == t;
    }
  }

  /** Distinct members have distinct values, and each value looks its member up again. */
  lemma GoodTypeValues()
    ensures forall t: GoodType :: GoodTypeOf(GoodTypeValue(t)) == Some(t)
    ensures forall s, t: GoodType :: GoodTypeValue(s) == GoodTypeValue(t) ==> s == t
  {
    forall s: GoodType, t: GoodType | GoodTypeValue(s) == GoodTypeValue(t) ensures s == t {
      assert GoodTypeOf(GoodTypeValue(s)) == Some(s);
    }
  }

  /** `AlcoType`: which part of the assortment to fetch, alcoholic goods other than draught beer or the rest. */
  datatype AlcoType = Alco | NonAlco

  function AlcoTypeValue(t: AlcoType): (v: int)
    ensures 1 <= v <= 2
  {
    match t
    case Alco => 1
    case NonAlco => 2
  }

  /** `AlcoType(value)`. */
  function AlcoTypeOf(v: int): (r: Option<AlcoType>)
    ensures r.Some? <==> v == 1 || v == 2
  {
    if v == 1 then Some(Alco) else if v == 2 then Some(NonAlco) else None
  }

  lemma AlcoTypeValues()
    ensures forall t :: AlcoTypeOf(AlcoTypeValue(t)) == Some(t)
    ensures forall v :: AlcoTypeOf(v).Some? ==> AlcoTypeValue(AlcoTypeOf(v).value) == v
  {
  }

  /** `Characteristics`: the numeric attributes read from a style description. */
  datatype Characteristic = Abv | Og | Ibu

  const AllCharacteristics: seq<Characteristic> := [Abv, Og, Ibu]

  function Token(c: Characteristic): (s: string)
    ensures |s| > 0
  {
    match c
    case Abv => "abv"
    case Og => "og"
    case Ibu => "ibu"
  }

  function CharacteristicOf(s: string): (r: Option<Characteristic>)
    ensures r.Some? ==> r.value in AllCharacteristics
  {
    if s == "abv" then Some(Abv)
    else if s == "og" then Some(Og)
    else if s == "ibu" then Some(Ibu)
    else None
  }

  predicate IsLowerAscii(s: string) {
    forall i :: 0 <= i < |s| ==> 'a' <= s[i] <= 'z'
  }

  /** The tokens are lower-case, pairwise distinct, and look their member up again. */
  lemma CharacteristicTokens()
    ensures forall c: Characteristic :: IsLowerAscii(Token(c))
    ensures forall c: Characteristic :: CharacteristicOf(Token(c)) == Some(c)
    ensures forall c, d: Characteristic :: Token(c) == Token(d) ==> c == d
  {
    forall c: Characteristic, d: Characteristic | Token(c) == Token(d) ensures c == d {
      assert CharacteristicOf(Token(c)) == Some(c);
    }
  }
}

=== FILE: moysklad_good.dfy ===
/**
 * The commercial catalog's `Good` record and its name shortening: the text
 * before the first ` (`, with double spaces collapsed and surrounding
 * whitespace stripped.
 */
module MoySkladGood {

  /** Python's `str.isspace()` for one character: the characters `str.strip()` removes. */
  predicate IsSpace(c: char) {
    var n := c as int;
    || n == 0x20 || 0x09 <= n <= 0x0D || 0x1C <= n <= 0x1F || n == 0x85 || n == 0xA0
    || n == 0x1680 || 0x2000 <= n <= 0x200A || n == 0x2028 || n == 0x2029
    || n == 0x202F || n == 0x205F || n == 0x3000
  }

  /** `s` contains the separator ` (` somewhere. */
  predicate HasOpenParen(s: string) {
    exists i :: 0 <= i < |s| - 1 && s[i] == ' ' && s[i + 1] == '('
  }

  /** `s` contains two adjacent spaces somewhere. */
  predicate HasDoubleSpace(s: string) {
    exists i :: 0 <= i < |s| - 1 && s[i] == ' ' && s[i + 1] == ' '
  }

  /** `s.split(' (')[0]`: the text before the first ` (`, or all of `s` when there is none. */
  function BeforeOpenParen(s: string): (r: string)
    ensures |r| <= |s| && r == s[..|r|]
    ensures !HasOpenParen(r)
    ensures |r| < |s| ==> |r| + 2 <= |s| && s[|r|] == ' ' && s[|r| + 1] == '('
  {
    if |s| < 2 then s
    else if s[0] == ' ' && s[1] == '(' then []
    else [s[0]] + BeforeOpenParen(s[1..])
  }

  /**
   * `s.replace('  ', ' ')`: one left-to-right pass replacing non-overlapping
   * pairs of spaces by one space.
   */
  function CollapseDoubleSpaces(s: string): (r: string)
    ensures |s| > 0 ==> |r| > 0 && r[0] == s[0]
    ensures |r| <= |s|
  {
    if |s| < 2 then s
    else if s[0] == ' ' && s[1] == ' ' then " " + CollapseDoubleSpaces(s[2..])
    else [s[0]] + CollapseDoubleSpaces(s[1..])
  }

  /** A character put before text without ` (` makes none, unless it is a space followed by `(`. */
  lemma ConsNoOpenParen(c: char, t: string)
    requires !HasOpenParen(t) && (c == ' ' && |t| > 0 ==> t[0] != '(')
    ensures !HasOpenParen([c] + t)
  {
    var x := [c] + t;
    forall i | 0 <= i < |x| - 1 ensures !(x[i] == ' ' && x[i + 1] == '(') {
      if i > 0 {
        assert x[i] == t[i - 1] && x[i + 1] == t[i];
      }
    }
  }

  /** Collapsing spaces never creates a ` (`. */
  lemma {:induction false} CollapseKeepsNoOpenParen(s: string)
    requires !HasOpenParen(s)
    ensures !HasOpenParen(CollapseDoubleSpaces(s))
    decreases |s|
  {
    if |s| >= 2 {
      if s[0] == ' ' && s[1] == ' ' {
        InfixKeepsNoOpenParen(s, 2, |s| - 2);
        CollapseKeepsNoOpenParen(s[2..]);
        if |s| > 2 {
          assert !(s[1] == ' ' && s[2] == '(');
        }
        ConsNoOpenParen(' ', CollapseDoubleSpaces(s[2..]));
      } else {
        InfixKeepsNoOpenParen(s, 1, |s| - 1);
        CollapseKeepsNoOpenParen(s[1..]);
        assert !(s[0] == ' ' && s[1] == '(');
        ConsNoOpenParen(s[0], CollapseDoubleSpaces(s[1..]));
      }
    }
  }

  /** The index of the first non-whitespace character of `s` at or after `i`, or `|s|` if there is none. */
  function LeftEdge(s: string, i: nat): (k: nat)
    requires i <= |s|
    ensures i <= k <= |s|
    ensures forall j :: i <= j < k ==> IsSpace(s[j])
    ensures k < |s| ==> !IsSpace(s[k])
    decreases |s| - i
  {
    if i < |s| && IsSpace(s[i]) then LeftEdge(s, i + 1) else i
  }

  /** The end of `s[lo..j]` once its trailing whitespace is dropped. */
  function RightEdge(s: string, lo: nat, j: nat): (k: nat)
    requires lo <= j <= |s|
    ensures lo <= k <= j
    ensures forall m :: k <= m < j ==> IsSpace(s[m])
    ensures k > lo ==> !IsSpace(s[k - 1])
    decreases j
  {
    if j > lo && IsSpace(s[j - 1]) then RightEdge(s, lo, j - 1) else j
  }

  /**
   * `s.strip()`: the part of `s` between its leading and its trailing
   * whitespace, which neither starts nor ends with whitespace.
   */
  function Strip(s: string): (r: string)
    ensures |r| > 0 ==> !IsSpace(r[0]) && !IsSpace(r[|r| - 1])
    ensures var a, b := LeftEdge(s, 0), RightEdge(s, LeftEdge(s, 0), |s|);
      && a <= b <= |s| && r == s[a..b]
      && (forall i :: 0 <= i < a ==> IsSpace(s[i]))
      && (forall i :: b <= i < |s| ==> IsSpace(s[i]))
  {
    var a := LeftEdge(s, 0);
    var b := RightEdge(s, a, |s|);
    assert a < b ==> s[a..b][0] == s[a] && s[a..b][b - a - 1] == s[b - 1];
    s[a..b]
  }

  /** A contiguous piece of a text without ` (` has none either. */
  lemma InfixKeepsNoOpenParen(s: string, k: nat, n: nat)
    requires k + n <= |s|
    ensures !HasOpenParen(s) ==> !HasOpenParen(s[k..k + n])
  {
    var t := s[k..k + n];
    if !HasOpenParen(s) {
      forall i | 0 <= i < |t| - 1 ensures !(t[i] == ' ' && t[i + 1] == '(') {
        assert t[i] == s[k + i] && t[i + 1] == s[k + i + 1];
      }
    }
  }

  /** Text without an opening parenthesis has no ` (`. */
  lemma NoParenNoOpenParen(s: string)
    requires '(' !in s
    ensures !HasOpenParen(s)
  {
    forall i | 0 <= i < |s| - 1 ensures !(s[i] == ' ' && s[i + 1] == '(') {
      assert s[i + 1] in s;
    }
  }

  /**
   * `Good._convert_name`: the display name of a catalog entry, e.g.
   * `4Пивовара - Black Jesus White Pepper (Porter - American. OG 17, ABV 6.7%, IBU 69)`
   * becomes `4Пивовара - Black Jesus White Pepper`.
   */
  function ConvertName(name: string): (r: string)
    ensures !HasOpenParen(r)
    ensures |r| > 0 ==> !IsSpace(r[0]) && !IsSpace(r[|r| - 1])
    ensures |r| <= |BeforeOpenParen(name)|
  {
    var collapsed := CollapseDoubleSpaces(BeforeOpenParen(name));
    CollapseKeepsNoOpenParen(BeforeOpenParen(name));
    var r := Strip(collapsed);
    InfixKeepsNoOpenParen(collapsed, LeftEdge(collapsed, 0), |r|);
    r
  }

  /** The conversion reads only the text before the first ` (`; a name without one is taken whole. */
  lemma ConvertNameHead(name: string)
    ensures ConvertName(name) == ConvertName(BeforeOpenParen(name))
    ensures !HasOpenParen(name) ==> BeforeOpenParen(name) == name
  {
    NoOpenParenUnchanged(BeforeOpenParen(name));
    if !HasOpenParen(name) {
      NoOpenParenUnchanged(name);
    }
  }

  /** Only the text before the first ` (` matters. */
  lemma ConvertNameUsesHeadOnly(head: string, rest: string)
    requires !HasOpenParen(head)
    ensures ConvertName(head + " (" + rest) == ConvertName(head)
  {
    HeadBeforeOpenParen(head, rest);
    NoOpenParenUnchanged(head);
  }

  lemma {:induction false} HeadBeforeOpenParen(head: string, rest: string)
    requires !HasOpenParen(head)
    ensures BeforeOpenParen(head + " (" + rest) == head
    decreases |head|
  {
    var s := head + " (" + rest;
    if |head| > 0 {
      assert !(s[0] == ' ' && s[1] == '(') by {
        if |head| > 1 {
          assert !(head[0] == ' ' && head[1] == '(');
        }
      }
      InfixKeepsNoOpenParen(head, 1, |head| - 1);
      HeadBeforeOpenParen(head[1..], rest);
      assert s[1..] == head[1..] + " (" + rest;
    }
  }

  lemma {:induction false} NoOpenParenUnchanged(s: string)
    requires !HasOpenParen(s)
    ensures BeforeOpenParen(s) == s
    decreases |s|
  {
    if |s| >= 2 {
      assert !(s[0] == ' ' && s[1] == '(');
      InfixKeepsNoOpenParen(s, 1, |s| - 1);
      NoOpenParenUnchanged(s[1..]);
    }
  }

  function Spaces(n: nat): (s: string)
    ensures |s| == n
  {
    seq(n, _ => ' ')
  }

  /** A run of `n` spaces becomes a run of `n - n / 2` spaces. */
  lemma {:induction false} CollapseRun(n: nat)
    ensures CollapseDoubleSpaces(Spaces(n)) == Spaces(n - n / 2)
    decreases n
  {
    if n >= 2 {
      assert Spaces(n)[2..] == Spaces(n - 2);
      CollapseRun(n - 2);
      assert " " + Spaces(n - 2 - (n - 2) / 2) == Spaces(n - n / 2);
    }
  }

  /** Text without a pair of adjacent spaces is left alone by the space collapsing. */
  lemma {:induction false} NoDoubleSpaceUnchanged(s: string)
    requires !HasDoubleSpace(s)
    ensures CollapseDoubleSpaces(s) == s
    decreases |s|
  {
    if |s| >= 2 {
      assert !(s[0] == ' ' && s[1] == ' ');
      assert !HasDoubleSpace(s[1..]) by {
        forall i | 0 <= i < |s[1..]| - 1 ensures !(s[1..][i] == ' ' && s[1..][i + 1] == ' ') {
          assert s[1..][i] == s[i + 1] && s[1..][i + 1] == s[i + 2];
        }
      }
      NoDoubleSpaceUnchanged(s[1..]);
      assert s == [s[0]] + s[1..];
    }
  }

  /** Text with a pair of adjacent spaces gets shorter. */
  lemma {:induction false} DoubleSpaceShortens(s: string)
    requires HasDoubleSpace(s)
    ensures |CollapseDoubleSpaces(s)| < |s|
    decreases |s|
  {
    var i :| 0 <= i < |s| - 1 && s[i] == ' ' && s[i + 1] == ' ';
    if !(s[0] == ' ' && s[1] == ' ') {
      assert i > 0;
      assert s[1..][i - 1] == ' ' && s[1..][i] == ' ';
      DoubleSpaceShortens(s[1..]);
    }
  }

  /** The space collapsing changes exactly the texts that hold a pair of adjacent spaces. */
  lemma CollapseFixedPoints(s: string)
    ensures CollapseDoubleSpaces(s) == s <==> !HasDoubleSpace(s)
  {
    if HasDoubleSpace(s) {
      DoubleSpaceShortens(s);
    } else {
      NoDoubleSpaceUnchanged(s);
    }
  }

  /** Text without surrounding whitespace is left alone by `Strip`. */
  lemma StripTrimmed(s: string)
    requires |s| > 0 && !IsSpace(s[0]) && !IsSpace(s[|s| - 1])
    ensures Strip(s) == s
  {
    assert s[0..|s|] == s;
  }

  /** A name whose head is already short and clean converts to exactly that head. */
  lemma ConvertCleanHead(head: string, rest: string)
    requires !HasOpenParen(head) && CollapseDoubleSpaces(head) == head
    requires |head| > 0 && !IsSpace(head[0]) && !IsSpace(head[|head| - 1])
    ensures ConvertName(head + " (" + rest) == head
  {
    ConvertNameUsesHeadOnly(head, rest);
    NoOpenParenUnchanged(head);
    StripTrimmed(head);
  }

  /*
   * The three facts about the docstring example's head that `ConvertCleanHead`
   * needs, one lemma each. The head comes in as a parameter that `requires`
   * pins to the literal: the proofs then reason about a named string character
   * by character instead of about the literal spelled out in every term, which
   * keeps each proof small.
   */
  lemma DocstringHeadCollapse(head: string)
    requires head == "4Пивовара - Black Jesus White Pepper"
    ensures CollapseDoubleSpaces(head) == head
  {
    forall i | 0 <= i < |head| - 1 ensures !(head[i] == ' ' && head[i + 1] == ' ') {
    }
    NoDoubleSpaceUnchanged(head);
  }

  lemma DocstringHeadTrimmed(head: string)
    requires head == "4Пивовара - Black Jesus White Pepper"
    ensures |head| > 0 && !IsSpace(head[0]) && !IsSpace(head[|head| - 1])
  {
  }

  lemma DocstringHeadNoParen(head: string)
    requires head == "4Пивовара - Black Jesus White Pepper"
    ensures !HasOpenParen(head)
  {
    NoParenNoOpenParen(head);
  }

  /**
   * The docstring example: `4Пивовара - Black Jesus White Pepper` followed by
   * ` (Porter - American. OG 17, ABV 6.7%, IBU 69)` converts to the former.
   */
  lemma DocstringExample()
    ensures ConvertName("4Пивовара - Black Jesus White Pepper" + " (" + "Porter - American. OG 17, ABV 6.7%, IBU 69)")
         == "4Пивовара - Black Jesus White Pepper"
  {
    DocstringExampleFor("4Пивовара - Black Jesus White Pepper", "Porter - American. OG 17, ABV 6.7%, IBU 69)");
  }

  lemma DocstringExampleFor(short: string, rest: string)
    requires short == "4Пивовара - Black Jesus White Pepper"
    ensures ConvertName(short + " (" + rest) == short
  {
    DocstringHeadCollapse(short);
    DocstringHeadTrimmed(short);
    DocstringHeadNoParen(short);
    ConvertCleanHead(short, rest);
  }

  lemma CollapseThreeSpaces()
    ensures CollapseDoubleSpaces("a   b") == "a  b"
  {
    assert "a   b"[1..] == "   b" && "   b"[2..] == " b" && " b"[1..] == "b";
  }

  lemma CollapseTwoSpaces()
    ensures CollapseDoubleSpaces("a  b") == "a b"
  {
    assert "a  b"[1..] == "  b" && "  b"[2..] == "b";
  }

  /** Three spaces become two, so converting twice can shorten a name again. */
  lemma NotIdempotent()
    ensures ConvertName("a   b") == "a  b"
    ensures ConvertName(ConvertName("a   b")) == "a b"
  {
    NoParenNoOpenParen("a   b");
    NoOpenParenUnchanged("a   b");
    NoParenNoOpenParen("a  b");
    NoOpenParenUnchanged("a  b");
    CollapseThreeSpaces();
    CollapseTwoSpaces();
    StripTrimmed("a  b");
    StripTrimmed("a b");
  }

  /** `Good`: one commercial catalog entry as the sales report uses it. */
  datatype Good = Good(commercialName: string, quantity: int, price: real, egaisName: string, convertName: bool)

  /** The dataclass constructor followed by `__post_init__`. */
  function NewGood(commercialName: string, quantity: int, price: real,
                   egaisName: string := "", convertName: bool := true): (g: Good)
    ensures g.quantity == quantity && g.price == price && g.egaisName == egaisName
    ensures g.convertName == convertName
    ensures convertName ==> g.commercialName == ConvertName(commercialName)
    ensures convertName ==> !HasOpenParen(g.commercialName)
    ensures convertName ==> |g.commercialName| > 0 ==>
              !IsSpace(g.commercialName[0]) && !IsSpace(g.commercialName[|g.commercialName| - 1])
    ensures !convertName ==> g.commercialName == commercialName
  {
    Good(if convertName then ConvertName(commercialName) else commercialName,
         quantity, price, egaisName, convertName)
  }

  /** `Good.to_tuple`: (commercial name, regulatory name, quantity, price). */
  function ToTuple(g: Good): (string, string, int, real) {
    (g.commercialName, g.egaisName, g.quantity, g.price)
  }

  /**
   * The tuple carries everything but the conversion flag: building a `Good`
   * from it without conversion gives back the same record and tuple.
   */
  lemma TupleRebuildsGood(g: Good)
    ensures var t := ToTuple(g);
            NewGood(t.0, t.2, t.3, t.1, false) == g.(convertName := false)
    ensures var t := ToTuple(g);
            ToTuple(NewGood(t.0, t.2, t.3, t.1, false)) == t
  {
  }
}

=== FILE: moysklad_urls.dfy ===
/**
 * Request descriptions for the commercial catalog's JSON API 1.2: the
 * endpoint and query filter per request kind, and the request headers.
 * The current date and the already-encoded Basic credentials are inputs.
 */
module MoySkladUrls {
  import opened Wrappers
  import opened Dates

  const JsonUrl := "https://online.moysklad.ru/api/remap/1.2/"
  const BeerFolderId := "8352f575-b4c1-11e7-7a34-5acf0009a77f"
  const GeoOrgId := "0a405989-b28a-11e7-7a31-d0fd00338283"
  const GeoOrgHref := JsonUrl + "entity/organization/" + GeoOrgId
  const GeoShopId := "5057e2b5-b498-11e7-7a34-5acf0002684b"
  const GeoShopHref := JsonUrl + "entity/retailstore/" + GeoShopId

  datatype UrlType = Token | RetailDemand | Assortment | RetailReturn

  /** The two request kinds that read a period of retail documents. */
  predicate IsSales(urlType: UrlType) {
    urlType.RetailDemand? || urlType.RetailReturn?
  }

  /** A query parameter value: one text, a list of texts, or a number. */
  datatype Param = Text(text: string) | Texts(texts: seq<string>) | Number(number: int)

  /** `MoySkladUrl`: endpoint and query parameters, in insertion order. */
  datatype MoySkladUrl = MoySkladUrl(url: string, requestFilter: seq<(string, Param)>)

  /**
   * `urljoin(JSON_URL, path)` for a relative `path` without a leading `/`:
   * the base ends in `/`, so the path is appended to it.
   */
  function Endpoint(path: string): string {
    JsonUrl + path
  }

  const SalesExpand := "positions,positions.assortment"
  const FolderHref := JsonUrl + "entity/productfolder/" + BeerFolderId

  /** A date framed by a seven-character head and a nine-character tail sits at offsets 7 to 17. */
  lemma Framed(head: string, date: string, tail: string)
    requires |head| == 7 && |date| == 10 && |tail| == 9
    ensures var s := head + date + tail;
            |s| == 26 && s[..7] == head && s[7..17] == date && s[17..] == tail
  {
  }

  /**
   * A date filter `moment<bound>YYYY-MM-DD<time>`: `>` with ` 00:00:00` opens
   * the period, `<` with ` 23:59:00` closes it.
   */
  function DateFilter(bound: char, d: CalendarDate, time: string): (s: string)
    requires |time| == 9
    ensures |s| == 26 && s[..6] == "moment" && s[6] == bound && s[7..17] == Iso(d) && s[17..] == time
  {
    var head, iso := "moment" + [bound], Iso(d);
    Framed(head, iso, time);
    head + iso + time
  }

  /** The path below `JsonUrl` each request kind is sent to. */
  function Path(urlType: UrlType): (p: string)
    ensures |p| == match urlType case Token => 14 case Assortment => 17 case RetailDemand => 19 case RetailReturn => 24
  {
    match urlType
    case Token => "security/token"
    case Assortment => "entity/assortment"
    case RetailDemand => "entity/retaildemand"
    case RetailReturn => "entity/retailsalesreturn"
  }

  /** The filter list of a sales or returns request for the period `start`..`end`. */
  function SalesFilter(start: CalendarDate, end: CalendarDate): seq<(string, Param)> {
    [("filter", Texts(["organization=" + GeoOrgHref, "assortment=" + FolderHref, DateFilter('>', start, " 00:00:00"), DateFilter('<', end, " 23:59:00")])),
     ("offset", Text("0")),
     ("expand", Text(SalesExpand)),
     ("limit", Text("100"))]
  }

  /**
   * `get_url`. A missing start of a sales period is `today`; a missing end
   * is the start. The `offset` argument reaches only the assortment request.
   */
  function GetUrl(urlType: UrlType, startPeriod: Option<CalendarDate>, endPeriod: Option<CalendarDate>,
                  offset: int, today: CalendarDate): (u: MoySkladUrl)
    ensures u.url == JsonUrl + Path(urlType)
    ensures urlType == Token ==> u.requestFilter == []
    ensures urlType == Assortment ==>
              && |u.requestFilter| == 2
              && u.requestFilter[0] == ("filter", Texts(["productFolder=" + FolderHref]))
              && u.requestFilter[1] == ("offset", Number(offset))
    ensures IsSales(urlType) ==>
              var start := startPeriod.GetOr(today);
              u.requestFilter == SalesFilter(start, endPeriod.GetOr(start))
  {
    match urlType
    case Token => MoySkladUrl(Endpoint(Path(Token)), [])
    case Assortment =>
      MoySkladUrl(Endpoint(Path(Assortment)),
                  [("filter", Texts(["productFolder=" + FolderHref])), ("offset", Number(offset))])
    case _ =>
      var start := if startPeriod.None? then today else startPeriod.value;
      var end := if endPeriod.None? then start else endPeriod.value;
      MoySkladUrl(Endpoint(Path(urlType)), SalesFilter(start, end))
  }

  /** For sales and returns, leaving out the end of the period is asking for the start day alone. */
  lemma SalesEndDefaultsToStart(urlType: UrlType, startPeriod: Option<CalendarDate>, offset: int, today: CalendarDate)
    requires IsSales(urlType)
    ensures GetUrl(urlType, startPeriod, None, offset, today)
         == GetUrl(urlType, startPeriod, Some(startPeriod.GetOr(today)), offset, today)
  {
  }

  /** Sales and returns always ask for the first page: the offset argument has no effect. */
  lemma SalesIgnoreOffset(urlType: UrlType, startPeriod: Option<CalendarDate>, endPeriod: Option<CalendarDate>,
                          offset1: int, offset2: int, today: CalendarDate)
    requires IsSales(urlType)
    ensures GetUrl(urlType, startPeriod, endPeriod, offset1, today)
         == GetUrl(urlType, startPeriod, endPeriod, offset2, today)
  {
  }

  /** The period a sales filter asks for, read back from its two date filters. */
  function FilterPeriod(filter: seq<(string, Param)>): Option<(Date, Date)> {
    if |filter| > 0 && filter[0].1.Texts? && |filter[0].1.texts| == 4 then
      var from, to := filter[0].1.texts[2], filter[0].1.texts[3];
      if |from| == 26 && |to| == 26 then
        match (ParseIso(from[7..17]), ParseIso(to[7..17]))
        case (Some(a), Some(b)) => Some((a, b))
        case _ => None
      else None
    else None
  }

  /** The date of a date filter reads back from offsets 7 to 17. */
  lemma DateFilterReadBack(bound: char, d: CalendarDate, time: string)
    requires |time| == 9
    ensures ParseIso(DateFilter(bound, d, time)[7..17]) == Some(d)
  {
    IsoRoundTrip(d);
  }

  /** A filter whose third and fourth texts carry dates at offsets 7 to 17 asks for that period. */
  lemma PeriodOfFilter(filter: seq<(string, Param)>, start: Date, end: Date)
    requires |filter| > 0 && filter[0].1.Texts? && |filter[0].1.texts| == 4
    requires var from, to := filter[0].1.texts[2], filter[0].1.texts[3];
             && |from| == 26 && |to| == 26
             && ParseIso(from[7..17]) == Some(start) && ParseIso(to[7..17]) == Some(end)
    ensures FilterPeriod(filter) == Some((start, end))
  {
  }

  lemma SalesFilterReadBack(start: CalendarDate, end: CalendarDate)
    ensures FilterPeriod(SalesFilter(start, end)) == Some((start, end))
  {
    var filter := SalesFilter(start, end);
    var texts := filter[0].1.texts;
    assert texts[2] == DateFilter('>', start, " 00:00:00") && texts[3] == DateFilter('<', end, " 23:59:00");
    DateFilterReadBack('>', start, " 00:00:00");
    DateFilterReadBack('<', end, " 23:59:00");
    PeriodOfFilter(filter, start, end);
  }

  /** The period can be read back from the two date filters of a sales request. */
  lemma SalesPeriodReadBack(urlType: UrlType, start: CalendarDate, end: CalendarDate, offset: int, today: CalendarDate)
    requires IsSales(urlType)
    ensures FilterPeriod(GetUrl(urlType, Some(start), Some(end), offset, today).requestFilter)
            == Some((start, end))
  {
    assert GetUrl(urlType, Some(start), Some(end), offset, today).requestFilter == SalesFilter(start, end);
    SalesFilterReadBack(start, end);
  }

  /** Different request kinds go to different endpoints. */
  lemma EndpointsDistinct(t1: UrlType, t2: UrlType, s1: Option<CalendarDate>, s2: Option<CalendarDate>,
                          e1: Option<CalendarDate>, e2: Option<CalendarDate>, o1: int, o2: int, today: CalendarDate)
    requires t1 != t2
    ensures GetUrl(t1, s1, e1, o1, today).url != GetUrl(t2, s2, e2, o2, today).url
  {
    assert |Path(t1)| != |Path(t2)|;
  }

  /** `get_headers`: bearer headers for a token, otherwise one Basic authorization header. */
  function GetHeaders(token: string, basicCredentials: string): (h: seq<(string, string)>)
    ensures token != "" ==> |h| == 3 && h[2] == ("Authorization", "Bearer " + token)
    ensures token == "" ==> h == [("Authorization", "Basic " + basicCredentials)]
    ensures forall i :: 0 <= i < |h| && h[i].0 == "Authorization" ==> i == |h| - 1
  {
    if token != "" then
      [("Content-Type", "application/json"),
       ("Lognex-Pretty-Print-JSON", "true"),
       ("Authorization", "Bearer " + token)]
    else
      [("Authorization", "Basic " + basicCredentials)]
  }

  /** The token travels unchanged in the authorization header. */
  lemma BearerCarriesToken(token: string, basicCredentials: string)
    requires token != ""
    ensures var v := GetHeaders(token, basicCredentials)[2].1;
            v[..7] == "Bearer " && v[7..] == token
  {
  }
}

=== FILE: sorting.dfy ===
/**
 * A stable sort by key, the behaviour of Python's `sorted(xs, key=...)`:
 * the output is a permutation ordered by key, and elements with equal keys
 * keep their input order.
 */
module Sorting {

  /** `le` is reflexive, transitive and total: a `<=` on keys. */
  ghost predicate TotalPreorder<K(!new)>(le: (K, K) -> bool) {
    && (forall x :: le(x, x))
    && (forall x, y, z :: le(x, y) && le(y, z) ==> le(x, z))
    && (forall x, y :: le(x, y) || le(y, x))
  }

  predicate SortedBy<T, K>(s: seq<T>, key: T -> K, le: (K, K) -> bool) {
    forall i, j :: 0 <= i < j < |s| ==> le(key(s[i]), key(s[j]))
  }

  /** The elements of `s` whose key is `k`, in the order of `s`. */
  function WithKey<T, K(==)>(s: seq<T>, key: T -> K, k: K): (r: seq<T>)
    ensures |r| <= |s|
    ensures forall i :: 0 <= i < |r| ==> r[i] in s && key(r[i]) == k
    ensures forall i :: 0 <= i < |s| && key(s[i]) == k ==> s[i] in r
  {
    if |s| == 0 then []
    else if key(s[0]) == k then [s[0]] + WithKey(s[1..], key, k)
    else WithKey(s[1..], key, k)
  }

  /** Puts `x` before the first element whose key is not below `x`'s. */
  function Insert<T, K>(x: T, s: seq<T>, key: T -> K, le: (K, K) -> bool): (r: seq<T>)
    ensures |r| == |s| + 1
    ensures multiset(r) == multiset(s) + multiset{x}
  {
    if |s| == 0 || le(key(x), key(s[0])) then [x] + s
    else
      assert s == [s[0]] + s[1..];
      [s[0]] + Insert(x, s[1..], key, le)
  }

  function SortBy<T, K>(s: seq<T>, key: T -> K, le: (K, K) -> bool): (r: seq<T>)
    ensures |r| == |s|
    ensures multiset(r) == multiset(s)
  {
    if |s| == 0 then []
    else
      assert s == [s[0]] + s[1..];
      Insert(s[0], SortBy(s[1..], key, le), key, le)
  }

  lemma {:induction false} InsertSorted<T, K(!new)>(x: T, s: seq<T>, key: T -> K, le: (K, K) -> bool)
    requires TotalPreorder(le)
    requires SortedBy(s, key, le)
    ensures SortedBy(Insert(x, s, key, le), key, le)
    decreases |s|
  {
    if |s| > 0 && !le(key(x), key(s[0])) {
      InsertSorted(x, s[1..], key, le);
      var r := Insert(x, s, key, le);
      var t := Insert(x, s[1..], key, le);
      assert r == [s[0]] + t;
      forall j | 0 < j < |r| ensures le(key(s[0]), key(r[j])) {
        assert r[j] in multiset(t);
        assert r[j] == x || r[j] in multiset(s[1..]);
        if r[j] != x {
          var m :| 0 <= m < |s[1..]| && s[1..][m] == r[j];
          assert s[m + 1] == r[j];
        }
      }
    }
  }

  /** The output of `SortBy` is ordered by key. */
  lemma {:induction false} SortBySorted<T, K(!new)>(s: seq<T>, key: T -> K, le: (K, K) -> bool)
    requires TotalPreorder(le)
    ensures SortedBy(SortBy(s, key, le), key, le)
    decreases |s|
  {
    if |s| > 0 {
      SortBySorted(s[1..], key, le);
      InsertSorted(s[0], SortBy(s[1..], key, le), key, le);
    }
  }

  lemma {:induction false} InsertWithKey<T, K(!new)>(x: T, s: seq<T>, key: T -> K, le: (K, K) -> bool, k: K)
    requires forall y :: le(y, y)
    ensures WithKey(Insert(x, s, key, le), key, k)
         == if key(x) == k then [x] + WithKey(s, key, k) else WithKey(s, key, k)
    decreases |s|
  {
    if |s| > 0 && !le(key(x), key(s[0])) {
      var r := Insert(x, s, key, le);
      assert r[0] == s[0] && r[1..] == Insert(x, s[1..], key, le);
      InsertWithKey(x, s[1..], key, le, k);
    } else {
      var r := Insert(x, s, key, le);
      assert r[0] == x && r[1..] == s;
    }
  }

  /** Stability: for every key, the elements carrying it appear in input order. */
  lemma {:induction false} SortByStable<T, K(!new)>(s: seq<T>, key: T -> K, le: (K, K) -> bool, k: K)
    requires forall y :: le(y, y)
    ensures WithKey(SortBy(s, key, le), key, k) == WithKey(s, key, k)
    decreases |s|
  {
    if |s| > 0 {
      SortByStable(s[1..], key, le, k);
      InsertWithKey(s[0], SortBy(s[1..], key, le), key, le, k);
    }
  }
}

=== FILE: wrappers.dfy ===
/** An optional value, shared by the modules of this model. */
module Wrappers {

  datatype Option<+T> = None | Some(value: T) {

    /** The wrapped value, or `default` when there is none. */
    function GetOr(default: T): T {
      match this
      case Some(v) => v
      case None => default
    }
  }
}
